=== FILE: README.md ===
# To-do app: task store, endpoints, session and list reconciliation

This project models the rule-bearing core of a small to-do application: a FastAPI
backend that keeps each user's tasks, and a Next.js page that shows them. All state is
immutable. Every database query, storage call and HTTP exchange is a pure function over
in-memory values.

- **Backend task store** (`TaskService`). The `tasks` table is a sequence of `Task` rows
  with unique ids. The module covers:
  - listing: owner and status filter, sort, offset/limit;
  - counting, get, create, partial update, status update and delete;
  - the invariant that ids stay unique and rows stay within the model's field bounds.
- **Endpoints** (`TasksApi`, `Router`):
  - the missing-user guard;
  - the handlers' own length checks;
  - the skip and page-count arithmetic;
  - the not-found mapping;
  - FastAPI's order of work: bearer dependency, then parameter/body validation, then the
    handler.
- **Errors** (`Errors`): each exception class becomes a status, a detail and headers.
- **Bearer check** (`JwtBearer`): FastAPI's `HTTPBearer`, which splits the
  `Authorization` header and refuses a missing or malformed one, then the decision tree of
  the application's dependency on top of it. Token verification is a function parameter.
- **Users** (`UserService`): email uniqueness on registration, including the
  commit-time integrity rollback. Lookups by email and by id. Hashing is a function
  parameter.
- **Browser session** (`AuthSession`): `login`, `register`, `logout` and
  `isAuthenticated` over the stored token.
- **HTTP wrappers** (`Api`, `ApiClient`): how a response is classified, the header rule,
  token clearing on 401, and the query builders.
- **Task form** (`TaskForm`): trimming, the ordered checks on UTF-16 lengths, and the due
  date computed with `Date.UTC` at 23:59:59.999 of the parsed day. For a year from 0 to 99
  that lands 1900 years later (see Findings).
- **Task page** (`HomePage`): optimistic create, toggle and delete, confirm-first update,
  loading, the page buttons and logout. Each is modelled as a function from the shown list
  and the API outcome to the new list and the page's effect.
- **Where the two ends meet** (`Wire`): what the server reads from the clients' queries,
  whether form output passes the create endpoint, and whether the page buttons cover the
  server's pages.

Timestamps are `Stamp = int`, a count of milliseconds. A new row's two timestamps come
from two separate `datetime.utcnow()` readings (backend/models/task.py:23-24). An update
stamps `datetime.now()`, the server's naive local time (backend/services/task_service.py:98
and 120). The model takes all three readings as inputs (`TaskModel.Clock`) and does not
relate local time to UTC. Ids and the outcomes of network calls are inputs too.

Two disagreements between the clients and the server are kept as written. Lemmas state
each one:

- Both clients send the list filter under the query key `status`, but the endpoint reads
  `status_filter`. The server therefore never filters a list the page asks for
  (`Wire.PageFilterNotApplied`, `Wire.ClientFilterNotApplied`; see Findings).
- The page recognises an expired session by the text "401" in the thrown message. The
  wrapper's message for a 401 does not contain that text, so the page shows an alert
  instead of going to the login page (`HomePage.ExpiredSessionIsAlerted`).

Two behaviours of the page, as the code has them:

- A successful create replaces the optimistic entry by matching its temporary id, not by
  its position in the list (frontend/app/page.tsx:97).
- Update is confirm-first: the list changes only after the server answers
  (frontend/app/page.tsx:117-127).

## Model

| member | source | states |
|---|---|---|
| TaskModel.ParseStatus | backend/models/task.py:8-10 | a status string is accepted exactly when it is "pending" or "completed", and the accepted value names the string back |
| TaskModel.StatusNameRoundTrip | backend/models/task.py:8-10 | each status parses back from its own name |
| TaskModel.Flip | frontend/components/TaskCard.tsx:22 | the card's toggle always asks for the other status |
| TaskModel.FlipInvolutive | frontend/components/TaskCard.tsx:22 | flipping twice gives the status back |
| TaskOrder.KeyOf | backend/services/task_service.py:24-29 | the sort column is title for "title", due date for "due_date", and creation time for anything else |
| TaskOrder.Ascending | backend/services/task_service.py:25 | the order is ascending exactly when it is "asc"; any other text means descending |
| TaskOrder.BeforeTotal | backend/services/task_service.py:24-29 | any two rows are comparable under every sort column and direction, including null due dates |
| TaskOrder.BeforeTransitive | backend/services/task_service.py:24-29 | the ordering is transitive, so a sorted listing is consistent |
| TaskOrder.Insert | backend/services/task_service.py:23-29 | inserting into a sorted sequence keeps it sorted and adds exactly that row |
| TaskOrder.Sort | backend/services/task_service.py:23-29 | the result is sorted and is a permutation of the input |
| TaskService.OffsetLimit | backend/services/task_service.py:32 | the page is the run of rows starting at `skip`, at most `limit` long, empty past the end |
| TaskService.GetTasks | backend/services/task_service.py:11-38 | the page is the `skip`-th run of at most `limit` rows of the caller's filtered rows sorted in the requested order; every row on it is a stored row of the caller with the filter status, and the page is sorted |
| TaskService.CountTasks | backend/services/task_service.py:143-153 | the count never exceeds the table, and is zero exactly when no row matches |
| TaskService.SelectedLengthIsCount | backend/services/task_service.py:143-153 | the count equals the number of rows the listing's filter selects |
| TaskService.CountMatchesListing | backend/services/task_service.py:143-153 | a first page of at least `count` rows holds every matching row, as many as the count |
| TaskService.FindOwned | backend/services/task_service.py:43-45 | finds a row with that id and owner exactly when one exists |
| TaskService.GetTaskById | backend/services/task_service.py:40-49 | a task comes back exactly when the caller owns a row with that id, and it is that row |
| TaskService.CreateTask | backend/services/task_service.py:51-79 | the row is appended with the given fields, the status pending when none was sent, the caller as owner, and each timestamp from its own clock reading; an id already present is refused with the table unchanged; ids stay unique |
| TaskService.ApplyUpdate | backend/services/task_service.py:92-98 | a patch that sends null for the title or the status gives no storable row; otherwise each sent field is taken from the patch, every other field is kept, and the update time is the local clock reading |
| TaskService.UpdateTask | backend/services/task_service.py:81-104 | no owned row gives nothing; an owned row with a null title or status fails the commit; both leave the table unchanged; otherwise only that row is replaced by its patched copy; the invariant is kept |
| TaskService.UpdateTaskStatus | backend/services/task_service.py:106-126 | only the owned row's status and update time change; an unknown or foreign id leaves the table unchanged |
| TaskService.RemoveAtKeepsInvariant | backend/services/task_service.py:139 | deleting a row keeps ids unique and rows valid |
| TaskService.DeleteTask | backend/services/task_service.py:128-141 | true exactly when an owned row exists; that row alone is removed; otherwise the table is unchanged |
| TaskService.DeleteThenGet | backend/services/task_service.py:128-141 | after a delete the task is not found, and every other row is still stored |
| TaskService.CreateThenGet | backend/services/task_service.py:51-69 | a created task is found by its owner and by no other user |
| Errors.ToHttp | backend/utils/errors.py:10-53 | not-found and foreign-task errors are 404, validation 422, authentication 401 with a Bearer challenge, authorization 403; the details follow each class |
| Errors.UnauthorizedAccessIndistinguishable | backend/utils/errors.py:19-25 | a foreign task's error equals a missing task's error, whoever asks |
| Errors.DefaultAuthErrors | backend/utils/errors.py:37-53 | the default details are "Not authenticated" and "Not authorized" |
| TasksApi.Skip | backend/api/v1/tasks.py:38 | the skip is zero exactly on page 1, and the page's rows end within `page * limit` |
| TasksApi.PageCount | backend/api/v1/tasks.py:49 | the pages hold every row, the last page is non-empty, and there are no pages exactly when there are no rows |
| TasksApi.EveryRowOnExactlyOnePage | backend/api/v1/tasks.py:38-49 | each row index lies on exactly one page, and that page is within the page count |
| TasksApi.ListTasks | backend/api/v1/tasks.py:18-59 | 401 exactly without a user; otherwise the service's page at skip `(page - 1) * limit`, with the pagination echoing page and limit and carrying the count and the page count |
| TasksApi.EveryTaskOnItsPage | backend/api/v1/tasks.py:38-59 | the row at position `i` of the ordered selection is listed on page `i / limit + 1`, at position `i - skip`, and that page is within the reported page count |
| TasksApi.CheckCreate | backend/api/v1/tasks.py:78-83 | a create body passes exactly when its title length is within 1..100 and its description is absent, empty or at most 1000 long; a failure is a 422 |
| TasksApi.CheckUpdate | backend/api/v1/tasks.py:128-133 | the title is checked only when sent, non-null and non-empty, the description only when non-null and non-empty |
| TasksApi.HandlerChecksImpliedByModel | backend/api/v1/tasks.py:79-83 | a body the model's field constraints accept also passes the handler's checks |
| TasksApi.CreateTask | backend/api/v1/tasks.py:62-85 | no user gives 401 and a failed check gives 422, both with the table unchanged; a checked body with a fresh key is 201 exactly then, with the row the service stores (its fields, status pending by default, the caller as owner); a key already taken is a 500 |
| TasksApi.GetTask | backend/api/v1/tasks.py:88-108 | 401 without a user, 404 "Task with id … not found" when the caller owns no such task, and 200 with the task whenever the caller owns it |
| TasksApi.UpdateTask | backend/api/v1/tasks.py:111-139 | 401, then 422, then 404, then 500 for a null title or status, each with the table unchanged; a checked patch without nulls on an owned row always answers 200 with the patched row, which the service stores |
| TasksApi.UpdateTaskStatus | backend/api/v1/tasks.py:142-163 | 401 or 404 with the table unchanged; an owned row always answers 200 with that row at the new status and time, which the service stores |
| TasksApi.DeleteTask | backend/api/v1/tasks.py:166-186 | 401 or 404 with the table unchanged; an owned row is always removed, one row fewer, answering "Task deleted successfully" |
| TasksApi.CreateThenGet | backend/api/v1/tasks.py:62-108 | a valid create with a fresh key answers 201, and the same user then reads that task back with 200 |
| TasksApi.DeleteThenGet | backend/api/v1/tasks.py:88-186 | an owned task's delete answers 200, and the same user's read of it is then a 404 |
| JwtBearer.Subject | backend/middleware/jwt_middleware.py:28 | the user id is the claims' `sub`, absent when the claims have none |
| JwtBearer.Partition | backend/middleware/jwt_middleware.py:11 | the header splits at its first space into a space-free scheme and the rest |
| JwtBearer.PartitionRoundTrip | backend/middleware/jwt_middleware.py:11 | a scheme, a space and credentials split back into that scheme and those credentials |
| JwtBearer.HttpBearer | backend/middleware/jwt_middleware.py:7-11 | the base class refuses a missing header, or an empty scheme or credentials part, with 403 "Not authenticated", and a scheme other than "bearer" in any case with 403 "Invalid authentication credentials"; what it passes is the header's scheme and non-empty credentials |
| JwtBearer.HttpBearerReadsHeader | backend/middleware/jwt_middleware.py:7-11 | "scheme token" passes the base class exactly when the scheme lowers to "bearer", and is split back into its parts |
| JwtBearer.CheckCredentials | backend/middleware/jwt_middleware.py:13-34 | no credentials give 403 "Invalid authorization code.", a scheme other than exactly "Bearer" 403, a falsy verification 401 with a Bearer challenge; otherwise the token and its subject |
| JwtBearer.Authorize | backend/middleware/jwt_middleware.py:10-34 | the base class's refusals pass through; a request passes only with the header "Bearer " and a non-empty token the verifier accepts, and the user id is its subject; "Invalid authorization code." is never answered |
| JwtBearer.BearerTokenAccepted | backend/middleware/jwt_middleware.py:13-29 | "Bearer " and a non-empty token the verifier accepts pass, with the token's subject as the user |
| JwtBearer.LowerCaseSchemeRefused | backend/middleware/jwt_middleware.py:14-18 | "bearer" in lower case passes the base class and is then refused with 403 "Invalid authentication scheme." |
| JwtBearer.EmptyTokenNotAuthenticated | backend/middleware/jwt_middleware.py:11 | "Bearer ", "Bearer" and a missing header are refused as not authenticated before any token check |
| JwtBearer.VerifierNotConsultedOnBadScheme | backend/middleware/jwt_middleware.py:11-18 | when the header's scheme is not exactly "Bearer" or its token is empty, the outcome does not depend on the verifier and is a 403 |
| Router.IntOfText | backend/api/v1/tasks.py:22-23 | white space alone is refused; a text that strips to an optionally signed decimal numeral reads as that integer |
| Router.BindInt | backend/api/v1/tasks.py:22-23 | a missing integer parameter takes its default; a sent one is read as pydantic reads an integer from text |
| Router.BindIntReadsNumerals | backend/api/v1/tasks.py:22-23 | any decimal integer, with white space around it, reads back as itself |
| Router.BindIntReadsPlusSign | backend/api/v1/tasks.py:22-23 | a plus sign before a non-negative integer is accepted |
| Router.BindIntReadsZeroFraction | backend/api/v1/tasks.py:22-23 | a decimal integer followed by a point and zeros reads as that integer |
| Router.BindListQuery | backend/api/v1/tasks.py:19-25 | the listing parameters come from `status_filter`, `page`, `limit`, `sort_by` and `order`, each value read as sent or defaulted; the query binds exactly when the status is known and page and limit read as integers within their bounds, and otherwise is a 422 |
| Router.Handle | backend/api/v1/tasks.py:10-15 | the bearer check runs first and its error passes through; an invalid body or query is a 422; an authorised, valid request reaches its route's handler with the token's subject as the user and the matching clock reading; no error changes the table; the table invariant is kept |
| Router.BearerReadsOwnedTask | backend/api/v1/tasks.py:88-108 | "Bearer " and an accepted token whose subject owns the task read that task with 200 through the gate and the handler |
| UserService.GetUserByEmail | backend/services/user_service.py:52-67 | the user with that email, or nothing when there is none |
| UserService.GetUserById | backend/services/user_service.py:69-84 | the user with that id, or nothing when there is none |
| UserService.CreateUser | backend/services/user_service.py:10-50 | an existing email, or a failure at commit, gives 401 "User with this email already exists" with the users unchanged; otherwise the user is stored with the hash of the password; emails stay unique |
| UserService.SecondRegistrationRefused | backend/services/user_service.py:25-32 | registering the same email twice refuses the second attempt |
| AuthSession.Login | frontend/lib/auth.ts:3-15 | a non-2xx answer throws with storage untouched; a 2xx answer stores the text of the answer's token member |
| AuthSession.Register | frontend/lib/auth.ts:17-30 | storage is never written; a non-2xx answer throws |
| AuthSession.Logout | frontend/lib/auth.ts:32-34 | after logout the browser is not authenticated |
| AuthSession.LoginScenario | frontend/lib/auth.ts:3-15 | a login answered with token "t1" authenticates the browser with that token |
| AuthSession.LoginWithoutTokenAuthenticates | frontend/lib/auth.ts:12-13 | a 2xx login without a token stores the text "undefined", and with a null token the text "null"; either counts as authenticated |
| Api.ReadToken | frontend/lib/api.ts:8-11 | storage is read only when a window exists |
| Api.RequestHeaders | frontend/lib/api.ts:30-37 | JSON content type and the bearer token are set, and the caller's headers override both |
| Api.Request | frontend/lib/api.ts:4-62 | no token: throws before sending; 401: token cleared and "Authentication failed. Please log in again."; other non-2xx: "API {status}: {body}" with the token kept; 2xx: the body |
| Api.UnauthorizedEndsSession | frontend/lib/api.ts:50-56 | after any 401 the browser is no longer authenticated |
| Api.TasksQuery | frontend/lib/api.ts:65-66 | `status` is sent exactly when a filter other than "all" is chosen; `page` and `limit` are always sent |
| Api.TasksQueryIntended | frontend/lib/api.ts:65-66 | the same query with the filter under `status_filter`, sent exactly when a filter other than "all" is chosen |
| Wire.PageFilterAppliedWhenNamed | backend/api/v1/tasks.py:18-25 | with the filter sent as `status_filter`, the server binds exactly the page's chosen status, or none for "all", with page and limit as sent |
| Api.TasksPathEncodesQuery | frontend/lib/api.ts:66 | the template literal is the query string of those pairs |
| ApiClient.SetTokenAuthorizesRequests | frontend/lib/api-client.ts:11-29 | after setting a non-empty token every request carries "Bearer " and that token, overriding the caller's; an empty token sends what no token sends |
| ApiClient.UnauthorizedDropsCredential | frontend/lib/api-client.ts:15-39 | after a 401 a request carries an Authorization header only when its caller supplies one, and then the caller's |
| ApiClient.RequestHeaders | frontend/lib/api-client.ts:22-29 | an Authorization header is present exactly when there is a token or the caller sent one, and the token wins |
| ApiClient.ErrorMessage | frontend/lib/api-client.ts:43-44 | the answer's `detail` when present, else "HTTP error! status: {status}" |
| ApiClient.Request | frontend/lib/api-client.ts:19-48 | a 401 clears the token and still throws; any non-2xx throws the error message; 2xx returns the body |
| ApiClient.GetTasksParams | frontend/lib/api-client.ts:51-67 | page, limit, sort_by and order in that order, then `status` only when given |
| ApiClient.GetTasksQuery | frontend/lib/api-client.ts:51-67 | each argument that is passed appears as sent; each left-out one takes its own default (page 1, limit 10, created_at, desc) whatever the others are; status is appended only when given |
| ApiClient.GetTasksEndpoint | frontend/lib/api-client.ts:69-70 | the path always carries a query, starting with the page, and the query is the parameters' query string |
| Wire.ClientArgumentsReachServer | frontend/lib/api-client.ts:51-67 | for any mix of passed and left-out arguments within the bounds, the server binds each passed value as sent and each left-out one as its own default |
| ApiClient.DefaultParams | frontend/lib/api-client.ts:51-63 | with every argument left out the query is page 1, limit 10, created_at and desc |
| Strings.ParseInt | backend/api/v1/tasks.py:22-23 | a text is read as an integer exactly when it is an optional sign followed by one or more decimal digits, and then as that numeral's value |
| Strings.IntToStringRoundTrip | backend/api/v1/tasks.py:22-23 | the decimal form of any integer, and of a non-negative one with a plus sign, reads back as that integer |
| Strings.Trim | frontend/components/TaskForm.tsx:44 | the trimmed text is the slice of the input after its leading white space and followed only by white space, and neither starts nor ends with white space |
| Strings.TrimEmptyIffBlank | frontend/components/TaskForm.tsx:50 | a text trims to nothing exactly when it is all white space |
| Strings.TrimPadded | frontend/components/TaskForm.tsx:44 | white space added around a text that neither starts nor ends with it is trimmed away again |
| Strings.TrimIdempotent | frontend/components/TaskForm.tsx:44 | trimming twice changes nothing more |
| TaskForm.Utf16Length | frontend/components/TaskForm.tsx:55-63 | `length` counts one unit per character of the Basic Multilingual Plane and two for any other, so it lies between one and two units per character |
| TaskForm.EpochIsDayZero | frontend/components/TaskForm.tsx:34-39 | the day count is anchored at 1970-01-01 |
| TaskForm.MakeDayCarriesMonths | frontend/components/TaskForm.tsx:34-39 | twelve months more is the same day one year later, and twelve months less one year earlier |
| TaskForm.EndOfDay | frontend/components/TaskForm.tsx:34-39 | the due instant is the last millisecond of the parsed day: one millisecond before the next day begins |
| TaskForm.EndOfDayIsLatestOfDay | frontend/components/TaskForm.tsx:34-39 | for years outside 0..99 the code computes that instant, and every instant of the day is at or before it |
| TaskForm.TwoDigitYearShifted | frontend/components/TaskForm.tsx:34-39 | for years 0..99 the code's instant lies on the same day 1900 years later |
| TaskForm.YearFiftyMisdated | frontend/components/TaskForm.tsx:34-39 | the day 0050-06-14 is sent as the end of 1950-06-14 |
| TaskForm.Submit | frontend/components/TaskForm.tsx:25-66 | the checks run in the order title required, title length, description length, on UTF-16 lengths, and a draft is produced exactly when all pass; it holds the trimmed title, the trimmed description or nothing when blank, and a due date at the end of the parsed day, or of the day 1900 years later for a year from 0 to 99 |
| TaskForm.DueDateAsWritten | frontend/components/TaskForm.tsx:30-41 | no parsed day sends no due date; a parsed day sends the end of that day, or of the day 1900 years later for a year from 0 to 99 |
| TaskForm.SubmitIntended | frontend/components/TaskForm.tsx:25-66 | the same checks and the same draft, with only the due date changed to the last millisecond of the parsed day for every year; it equals the code's draft outside years 0 to 99 |
| HomePage.FailureEffect | frontend/app/page.tsx:49-55 | a message containing "401" leads to the login page, any other is alerted |
| HomePage.FindIndex | frontend/app/page.tsx:175 | the first entry with the id, or nothing exactly when none has it |
| HomePage.ReplaceById | frontend/app/page.tsx:97 | every entry with the id is replaced; every other entry and the length are unchanged |
| HomePage.SetStatus | frontend/app/page.tsx:137-139 | entries with the id get the status and the time; every other entry is unchanged |
| HomePage.WithoutId | frontend/app/page.tsx:100 | no entry with the id remains, and every other entry does |
| HomePage.ShowPending | frontend/app/page.tsx:79-91 | exactly one entry is added, first, pending, with the temporary id and the draft's fields; the old list follows unchanged |
| HomePage.HandleCreate | frontend/app/page.tsx:61-108 | not authenticated: login page with the list unchanged; success: the temporary entry becomes the server's task; failure: the temporary entry is removed and the error handled; the token re-check never fires |
| HomePage.CreateWithFreshTempId | frontend/app/page.tsx:79-100 | with a fresh temporary id, success gives the server's task followed by the old list, and failure gives the old list exactly |
| HomePage.CreateShowsServerIdOnce | frontend/app/page.tsx:97 | after a successful create, exactly one entry carries the server's id |
| HomePage.HandleUpdate | frontend/app/page.tsx:110-128 | failure leaves the list untouched; success replaces only the entries with that id by the server's task |
| HomePage.ToggleBody | frontend/app/page.tsx:143-145 | the body sent is the listed task with the requested status, and nothing is sent when the id is not listed |
| HomePage.HandleToggle | frontend/app/page.tsx:130-162 | an unlisted id changes nothing; success leaves the server's task in place; failure leaves the opposite of the requested status, stamped with the later time |
| HomePage.ToggleShowsOnlyTarget | frontend/app/page.tsx:137-139 | the optimistic toggle changes only the target's status and update time |
| HomePage.ToggleRollbackRestamps | frontend/app/page.tsx:151-153 | after the card's flip fails, the task has its old status with the later update time, so the list is restored only if the times coincide |
| HomePage.HandleDelete | frontend/app/page.tsx:164-194 | unconfirmed or unlisted: nothing changes; confirmed: every entry with the id is hidden; failure: the first of them is appended at the tail |
| HomePage.WithoutUniqueId | frontend/app/page.tsx:178 | with unique ids, hiding a task removes exactly its one entry |
| HomePage.DeleteRollbackMovesToTail | frontend/app/page.tsx:178-185 | with unique ids, a failed delete gives a permutation of the old list with the task last and nowhere else |
| HomePage.PageButtons | frontend/app/page.tsx:308-311 | buttons 1 to the page count, in order, only when there is more than one page |
| HomePage.PageButtonsAreAllPages | frontend/app/page.tsx:308-311 | a page has a button exactly when it is one of several pages |
| HomePage.HandleLogout | frontend/app/page.tsx:217-220 | the token is removed and the login page shown |
| HomePage.ExpiredSessionIsAlerted | frontend/app/page.tsx:51 | the wrapper's 401 message does not contain "401", so the page alerts it and stays |
| Wire.PageFilterNotApplied | frontend/lib/api.ts:66 | whatever filter the page sends, the server binds no status filter, binds the page and limit as sent, and uses the default sort |
| Wire.ClientFilterNotApplied | frontend/lib/api-client.ts:65-67 | the class-based client's status is not bound either, while page, limit, sort key and order are |
| Wire.FormDraftIsValidCreate | frontend/components/TaskForm.tsx:43-65 | every draft the form submits satisfies the create body's constraints and the handler's checks, and is stored as pending |
| Wire.WideTitleRefusedByFormOnly | frontend/components/TaskForm.tsx:55-58 | a title of 51 to 100 emoji is refused by the form and accepted by the server |
| Wire.ClientDefaultsAreServerDefaults | frontend/lib/api-client.ts:51-67 | the class-based client's default call is read as the server's default listing |
| Wire.EveryRowHasAButton | frontend/app/page.tsx:308-311 | when the rows span several pages, every row's page has a button; otherwise there are no buttons and every row is on page 1 |
| HomePage.LoadTasks | frontend/app/page.tsx:37-59 | a listing replaces the list and the page count wholesale; a failure keeps both |
| Wire.LoadedListingCoversEveryRow | frontend/app/page.tsx:37-59 | the page loaded from a server listing shows exactly the listed rows, and a button for every selected row's page when there are several |

## Left out

- HomePage.ShowPending: one clock reading stands for the three the page takes, `Date.now()` for the temporary id and two `new Date()` calls for its timestamps; they differ by at most the time between the calls, and the entry is replaced or removed once the server answers.
- Network, storage and database I/O: `fetch`, `localStorage`, SQLAlchemy sessions, commits
  and refreshes, and database initialisation. Each is an input or an in-memory sequence.
- Clocks and id generation: `Date.now`, `toISOString`, `datetime.utcnow`/`now()`, `uuid4`.
  Times and ids are parameters, and the ISO rendering of instants is not modelled.
- Token creation and verification, and password hashing. These calls are outside this
  model and are function parameters.
- The auth endpoints in `backend/api/v1/auth.py`: their answers are a random id and a
  foreign token.
- React rendering and effects, the form's visibility and edit state (`showForm`,
  `editingTask`), the loading flag, `console` output, and the mount effects that call
  `loadTasks`.
- `alert`, `confirm` and `router.push` are effects or inputs. Confirmation is a boolean.
- Async interleavings and stale closures. Each handler runs alone, so its success and
  failure steps see the list it produced itself.
- Browser parsing of the due-date field into local calendar fields. The parsed day is an
  input.
- JSON parsing: a 2xx body is returned as text.
- api-client's `detail` is taken to be a string. FastAPI's 422 detail is a list, and the
  model does not follow that case.
- Percent-encoding in query strings. Every key and value the clients send needs none.
- The database engine's collation and NULL order. Titles compare by code point, and a null
  due date sorts as the largest value. The engine is configured outside the code.
- The order of rows with equal sort keys. The database does not fix it, and the model keeps
  table order.
- `Date.UTC` for out-of-range time fields and instants beyond ±8.64e15 ms. Only the
  in-range fields the form passes are modelled.
- TaskService.CreateTask: a database constraint failure other than a duplicate id is not
  modelled.
- TaskService.UpdateTask: the update time is the local clock reading as a number; that it
  is naive local time, not UTC, is not modelled beyond keeping it a separate input.
- JwtBearer.HttpBearer: follows the `HTTPBearer` that answers 403 on a missing or malformed
  header. The FastAPI version is not fixed in the code; other releases answer 401.
- Router.BindInt: digit-group underscores ("1_000") and numerals of more than 4300
  characters are not modelled. Both are pydantic-specific forms the clients never send.
- TaskForm.Submit: the parsed due day is an input. `new Date("YYYY-MM-DD")` reads the
  field as UTC midnight and the code then takes the local year, month and day, so west of
  UTC the parsed day is the day before the picked one; the time zone is not modelled. An
  invalid date string, whose `toISOString` throws, is not modelled either.

## Findings

| source | as written | input that shows it | evidently intended | confidence | as-written member | corrected member |
|---|---|---|---|---|---|---|
| frontend/components/TaskForm.tsx:34-39 | `Date.UTC` maps a year from 0 to 99 to 1900 + year, so a due date in such a year is sent 1900 years late | a parsed day of 0050-06-14 is sent as 1950-06-14T23:59:59.999Z | the last millisecond of the parsed day in UTC for every year, without the 1900-year shift | medium, not executed | TaskForm.Submit via TaskForm.EndOfDayAsWritten (TaskForm.TwoDigitYearShifted, TaskForm.YearFiftyMisdated) | TaskForm.SubmitIntended via TaskForm.EndOfDay (TaskForm.EndOfDayIsLatestOfDay) |
| frontend/lib/api.ts:66 | the page sends its filter as `status`, while the list endpoint declares `status_filter` (backend/api/v1/tasks.py:21), so the server ignores it and lists every status | filter "completed" requests `?status=completed&page=1&limit=10`, which binds no status filter | the filter sent under `status_filter`, so the listing shows only the chosen status | medium, not executed | Api.TasksQuery (Wire.PageFilterNotApplied) | Api.TasksQueryIntended (Wire.PageFilterAppliedWhenNamed) |

=== FILE: api.dfy ===
/** The page's HTTP wrapper: every call reads the stored token, refuses to send without
    one, sends it as a bearer credential, and clears it on a 401. */
module Api {
  import opened Wrappers
  import opened Fetch
  import opened Query
  import opened TaskModel
  import opened AuthSession
  import Strings

  type Headers = map<string, string>

  const NoTokenMessage: string := "No authentication token found. Please log in again."
  const AuthFailedMessage: string := "Authentication failed. Please log in again."

  /** The token `request` reads: storage is consulted only when a window exists. */
  function ReadToken(st: Storage): (r: Option<string>)
    ensures r.Some? ==> st.hasWindow && r == st.token
    ensures st.hasWindow ==> r == st.token
  {
    if st.hasWindow then st.token else None
  }

  /** The JSON content type and the bearer credential, then the caller's headers, which
      win on a clash. */
  function RequestHeaders(token: string, caller: Headers): (h: Headers)
    ensures h.Keys == caller.Keys + {"Content-Type", "Authorization"}
    ensures forall k :: k in caller ==> h[k] == caller[k]
    ensures "Content-Type" !in caller ==> h["Content-Type"] == "application/json"
    ensures "Authorization" !in caller ==> h["Authorization"] == "Bearer " + token
  {
    map["Content-Type" := "application/json", "Authorization" := "Bearer " + token] + caller
  }

  /** One call: the storage afterwards, the headers sent (none if nothing was sent), and
      the parsed body or the thrown message. */
  datatype Call = Call(storage: Storage, sent: Option<Headers>, result: Result<string, string>)

  function ErrorMessage(status: nat, body: string): string
  {
    "API " + Strings.NatToString(status) + ": " + body
  }

  /** `request` */
  function Request(st: Storage, caller: Headers, fetched: Fetched): (c: Call)
    ensures c.sent.None? <==> ReadToken(st).None? || ReadToken(st).value == ""
    ensures c.sent.None? ==> c == Call(st, None, Err(NoTokenMessage))
    ensures c.sent.Some? ==> c.sent.value == RequestHeaders(ReadToken(st).value, caller)
    ensures c.sent.Some? && fetched.Received? && fetched.status == 401 ==>
      c.storage == st.(token := None) && c.result == Err(AuthFailedMessage)
    ensures c.storage != st ==> c.sent.Some? && fetched.Received? && fetched.status == 401
    ensures c.sent.Some? && fetched.Received? && !IsOk(fetched.status) && fetched.status != 401 ==>
      c.result == Err(ErrorMessage(fetched.status, fetched.body))
    ensures c.result.Ok? <==> c.sent.Some? && fetched.Received? && IsOk(fetched.status)
    ensures c.result.Ok? ==> c.result.value == fetched.body
  {
    var token := ReadToken(st);
    if token.None? || token.value == "" then
      Call(st, None, Err(NoTokenMessage))
    else
      var headers := Some(RequestHeaders(token.value, caller));
      match fetched
      case NetworkError(m) => Call(st, headers, Err(m))
      case Received(status, body, _, _) =>
        if IsOk(status) then Call(st, headers, Ok(body))
        else if status == 401 then Call(st.(token := None), headers, Err(AuthFailedMessage))
        else Call(st, headers, Err(ErrorMessage(status, body)))
  }

  /** Whatever request answered 401, the browser is no longer authenticated afterwards. */
  lemma UnauthorizedEndsSession(st: Storage, caller: Headers, body: string, detail: Option<string>, token: Member)
    ensures !IsAuthenticated(Request(st, caller, Received(401, body, detail, token)).storage)
  {
  }

  /** The list filter chosen on the page. */
  datatype ViewFilter = All | Only(status: Status)

  /** The query `getTasks` sends: `status` first when a filter other than "all" is set,
      then `page` and `limit`. */
  function TasksQuery(page: nat, limit: nat, filter: Option<ViewFilter>): (ps: seq<Param>)
    ensures Lookup(ps, "status").Some? <==> filter.Some? && filter.value.Only?
    ensures filter.Some? && filter.value.Only? ==> Lookup(ps, "status") == Some(StatusName(filter.value.status))
    ensures Lookup(ps, "page") == Some(Strings.NatToString(page))
    ensures Lookup(ps, "limit") == Some(Strings.NatToString(limit))
    ensures |ps| >= 2 && ps[|ps| - 2].0 == "page" && ps[|ps| - 1].0 == "limit"
  {
    var tail := [("page", Strings.NatToString(page)), ("limit", Strings.NatToString(limit))];
    if filter.Some? && filter.value.Only? then
      var ps := [("status", StatusName(filter.value.status))] + tail;
      assert ps[0].0 == "status";
      ps
    else
      tail
  }

  /** The path `getTasks` requests, as its template literal spells it. */
  function TasksPath(page: nat, limit: nat, filter: Option<ViewFilter>): string
  {
    "/api/v1/tasks/?"
    + (if filter.Some? && filter.value != All then "status=" + StatusName(filter.value.status) + "&" else "")
    + "page=" + Strings.NatToString(page) + "&limit=" + Strings.NatToString(limit)
  }

  /** The template literal is the query string of `TasksQuery`. */
  lemma QueryStringOfTail(p: string, l: string)
    ensures QueryString([("page", p), ("limit", l)]) == "page=" + p + "&limit=" + l
  {
    var tail := [("page", p), ("limit", l)];
    assert tail[1..] == [("limit", l)];
  }

  lemma TasksPathEncodesQuery(page: nat, limit: nat, filter: Option<ViewFilter>)
    ensures TasksPath(page, limit, filter) == "/api/v1/tasks/?" + QueryString(TasksQuery(page, limit, filter))
  {
    var p := Strings.NatToString(page);
    var l := Strings.NatToString(limit);
    QueryStringOfTail(p, l);
    if filter.Some? && filter.value.Only? {
      FilteredPath(page, limit, filter.value.status);
    } else {
      assert TasksQuery(page, limit, filter) == [("page", p), ("limit", l)];
      assert TasksPath(page, limit, filter) == "/api/v1/tasks/?" + "" + "page=" + p + "&limit=" + l;
    }
  }

  /** The filtered case: the `status` pair leads the query string. */
  lemma FilteredPath(page: nat, limit: nat, status: Status)
    ensures TasksPath(page, limit, Some(Only(status))) == "/api/v1/tasks/?" + QueryString(TasksQuery(page, limit, Some(Only(status))))
  {
    var p := Strings.NatToString(page);
    var l := Strings.NatToString(limit);
    var st := StatusName(status);
    var tail := [("page", p), ("limit", l)];
    QueryStringOfTail(p, l);
    assert TasksQuery(page, limit, Some(Only(status))) == [("status", st)] + tail;
    LeadingPair("status", st, tail);
    assert "status=" == "status" + "=";
    Regroup("/api/v1/tasks/?", "status", "=", st, "&", "page=" + p + "&limit=" + l);
  }

  /** The query as the server reads it: the same pairs, with the filter sent under the
      name the list endpoint declares, `status_filter`. */
  function TasksQueryIntended(page: nat, limit: nat, filter: Option<ViewFilter>): (ps: seq<Param>)
    ensures Lookup(ps, "status_filter").Some? <==> filter.Some? && filter.value.Only?
    ensures filter.Some? && filter.value.Only? ==> Lookup(ps, "status_filter") == Some(StatusName(filter.value.status))
    ensures Lookup(ps, "page") == Some(Strings.NatToString(page))
    ensures Lookup(ps, "limit") == Some(Strings.NatToString(limit))
    ensures Lookup(ps, "status").None? && Lookup(ps, "sort_by").None? && Lookup(ps, "order").None?
  {
    var tail := [("page", Strings.NatToString(page)), ("limit", Strings.NatToString(limit))];
    if filter.Some? && filter.value.Only? then
      var ps := [("status_filter", StatusName(filter.value.status))] + tail;
      assert ps[0].0 == "status_filter";
      ps
    else
      tail
  }

  /** The query string of a list with a leading pair. */
  lemma LeadingPair(k: string, v: string, ps: seq<Param>)
    requires |ps| >= 1
    ensures QueryString([(k, v)] + ps) == k + "=" + v + "&" + QueryString(ps)
  {
    assert ([(k, v)] + ps)[1..] == ps;
  }

  /** Re-bracketing of the template literal's pieces, so the query string's leading pair
      lines up with the literal's `status=…&` segment. */
  lemma Regroup(a: string, k: string, eq: string, v: string, amp: string, rest: string)
    ensures a + (k + eq + v + amp) + rest == a + (k + eq + v + amp + rest)
  {
  }
}

=== FILE: api_client.dfy ===
/** The class-based HTTP client: it keeps its own token, adds it as a bearer credential
    when it has one, and forgets it on a 401. */
module ApiClient {
  import opened Wrappers
  import opened Fetch
  import opened Query
  import opened TaskModel
  import Strings

  type Headers = map<string, string>

  datatype Client = Client(token: Option<string>)

  /** `setToken` */
  function SetToken(c: Client, token: string): (r: Client)
    ensures r.token == Some(token)
  {
    c.(token := Some(token))
  }

  /** `removeToken` */
  function RemoveToken(c: Client): (r: Client)
    ensures r.token.None?
  {
    c.(token := None)
  }

  /** The token is used only when it is a non-empty string. */
  predicate HasToken(c: Client)
  {
    c.token.Some? && c.token.value != ""
  }

  /** The JSON content type, then the caller's headers; the bearer credential last, so it
      replaces any caller `Authorization`. */
  function RequestHeaders(c: Client, caller: Headers): (h: Headers)
    ensures "Authorization" in h <==> HasToken(c) || "Authorization" in caller
    ensures HasToken(c) ==> h["Authorization"] == "Bearer " + c.token.value
    ensures !HasToken(c) && "Authorization" in caller ==> h["Authorization"] == caller["Authorization"]
    ensures forall k :: k in caller && k != "Authorization" ==> k in h && h[k] == caller[k]
    ensures "Content-Type" in h
    ensures "Content-Type" !in caller ==> h["Content-Type"] == "application/json"
  {
    var base := map["Content-Type" := "application/json"] + caller;
    if HasToken(c) then base["Authorization" := "Bearer " + c.token.value] else base
  }

  /** The thrown message: the body's `detail` when it is a non-empty string, else a
      generic message with the status. */
  function ErrorMessage(status: nat, detail: Option<string>): (m: string)
    ensures detail.Some? && detail.value != "" ==> m == detail.value
    ensures detail.None? || detail.value == "" ==> m == "HTTP error! status: " + Strings.NatToString(status)
  {
    if detail.Some? && detail.value != "" then detail.value
    else "HTTP error! status: " + Strings.NatToString(status)
  }

  /** `request`: the client afterwards, the headers sent, and the parsed body or the
      thrown message. */
  function Request(c: Client, caller: Headers, fetched: Fetched): (r: (Client, Headers, Result<string, string>))
    ensures r.1 == RequestHeaders(c, caller)
    ensures fetched.Received? && fetched.status == 401 ==>
      r.0.token.None? && r.2 == Err(ErrorMessage(401, fetched.detail))
    ensures r.0 != c ==> fetched.Received? && fetched.status == 401
    ensures fetched.Received? && !IsOk(fetched.status) ==> r.2 == Err(ErrorMessage(fetched.status, fetched.detail))
    ensures r.2.Ok? <==> fetched.Received? && IsOk(fetched.status)
    ensures r.2.Ok? ==> r.2.value == fetched.body
  {
    var headers := RequestHeaders(c, caller);
    match fetched
    case NetworkError(m) => (c, headers, Err(m))
    case Received(status, body, detail, _) =>
      if IsOk(status) then (c, headers, Ok(body))
      else
        var c' := if status == 401 then RemoveToken(c) else c;
        (c', headers, Err(ErrorMessage(status, detail)))
  }

  /** The query `getTasks` sends: `page`, `limit`, `sort_by` and `order`, then `status`
      only when one is given. */
  function GetTasksParams(status: Option<Status>, page: nat, limit: nat, sortBy: string, order: string): (ps: seq<Param>)
    ensures |ps| == if status.Some? then 5 else 4
    ensures ps[0] == ("page", Strings.NatToString(page)) && ps[1] == ("limit", Strings.NatToString(limit))
    ensures ps[2] == ("sort_by", sortBy) && ps[3] == ("order", order)
    ensures status.Some? ==> ps[4] == ("status", StatusName(status.value))
  {
    var ps := [("page", Strings.NatToString(page)), ("limit", Strings.NatToString(limit)), ("sort_by", sortBy), ("order", order)];
    if status.Some? then ps + [("status", StatusName(status.value))] else ps
  }

  /** `getTasks` called with some arguments left out (`undefined`): each left-out argument
      takes its default, page 1, limit 10, sorted by `created_at`, order `desc`. */
  function GetTasksQuery(status: Option<Status>, page: Option<nat>, limit: Option<nat>,
                         sortBy: Option<string>, order: Option<string>): (ps: seq<Param>)
    ensures |ps| == if status.Some? then 5 else 4
    ensures page.Some? ==> ps[0] == ("page", Strings.NatToString(page.value))
    ensures limit.Some? ==> ps[1] == ("limit", Strings.NatToString(limit.value))
    ensures sortBy.Some? ==> ps[2] == ("sort_by", sortBy.value)
    ensures order.Some? ==> ps[3] == ("order", order.value)
    ensures page.None? ==> ps[0] == ("page", Strings.NatToString(1))
    ensures limit.None? ==> ps[1] == ("limit", Strings.NatToString(10))
    ensures sortBy.None? ==> ps[2] == ("sort_by", "created_at")
    ensures order.None? ==> ps[3] == ("order", "desc")
    ensures status.Some? ==> ps[4] == ("status", StatusName(status.value))
  {
    GetTasksParams(status, page.GetOr(1), limit.GetOr(10), sortBy.GetOr("created_at"), order.GetOr("desc"))
  }

  /** `getTasks` with every default taken asks for page 1 of 10, newest first. */
  lemma DefaultParams(status: Option<Status>)
    ensures GetTasksQuery(status, None, None, None, None)[..4]
         == [("page", "1"), ("limit", "10"), ("sort_by", "created_at"), ("order", "desc")]
  {
    assert Strings.NatToString(1) == "1";
    assert Strings.NatToString(10) == Strings.NatToString(1) + [Strings.DigitChar(0)] == "10";
  }

  /** After `setToken(t)` with a non-empty `t`, every request carries `Bearer t`, whatever
      `Authorization` the caller passes; after `setToken("")` the client sends what it sends
      with no token at all. */
  lemma SetTokenAuthorizesRequests(c: Client, t: string, caller: Headers)
    ensures t != "" ==> RequestHeaders(SetToken(c, t), caller)["Authorization"] == "Bearer " + t
    ensures t == "" ==> RequestHeaders(SetToken(c, t), caller) == RequestHeaders(RemoveToken(c), caller)
  {
  }

  /** After a 401 the client sends no credential of its own: a later request carries an
      `Authorization` header only when its caller supplies one, and then the caller's. */
  lemma UnauthorizedDropsCredential(c: Client, caller: Headers, body: string, detail: Option<string>,
                                    token: Member, next: Headers)
    ensures var c' := Request(c, caller, Received(401, body, detail, token)).0;
      && ("Authorization" in RequestHeaders(c', next) <==> "Authorization" in next)
      && ("Authorization" in next ==> RequestHeaders(c', next)["Authorization"] == next["Authorization"])
  {
  }

  /** The endpoint `getTasks` requests: the query string is never empty, so the path
      always carries `?` and the query starts with the page. */
  function GetTasksEndpoint(status: Option<Status>, page: nat, limit: nat, sortBy: string, order: string): (r: string)
    ensures |r| >= 12 && r[..12] == "/tasks?page="
    ensures r[7..] == QueryString(GetTasksParams(status, page, limit, sortBy, order))
  {
    var ps := GetTasksParams(status, page, limit, sortBy, order);
    var qs := QueryString(ps);
    assert qs == "page" + "=" + ps[0].1 + "&" + QueryString(ps[1..]);
    assert qs[..5] == "page=";
    "/tasks" + (if qs != "" then "?" + qs else "")
  }
}

=== FILE: auth_session.dfy ===
/** The browser's session: the bearer token kept in local storage under one key, and
    the login, register and logout calls that write it. */
module AuthSession {
  import opened Wrappers
  import opened Fetch

  const TokenKey: string := "access_token"

  /** Whether a `window` exists (false during server rendering), and the value stored
      under `TokenKey`. */
  datatype Storage = Storage(hasWindow: bool, token: Option<string>)

  /** `isAuthenticated`: in a browser, with a non-empty stored token. */
  predicate IsAuthenticated(st: Storage)
  {
    st.hasWindow && st.token.Some? && st.token.value != ""
  }

  const LoginFailed: string := "Login failed"
  const RegisterFailed: string := "Register failed"

  /** `login`: a 2xx answer stores the answer's `token`; anything else throws and leaves
      storage alone. `setItem` stores the text of the member: "undefined" when it is
      missing, "null" when it is null. */
  function Login(st: Storage, fetched: Fetched): (r: (Storage, Result<string, string>))
    ensures r.1.Err? ==> r.0 == st
    ensures fetched.Received? && !IsOk(fetched.status) ==> r == (st, Err(LoginFailed))
    ensures r.1.Ok? <==> fetched.Received? && IsOk(fetched.status)
    ensures r.1.Ok? ==> r.0 == st.(token := Some(StoredText(fetched.token))) && r.1.value == fetched.body
  {
    match fetched
    case NetworkError(m) => (st, Err(m))
    case Received(status, body, _, token) =>
      if !IsOk(status) then (st, Err(LoginFailed))
      else (st.(token := Some(StoredText(token))), Ok(body))
  }

  /** `register`: never touches storage; a non-2xx answer throws. */
  function Register(st: Storage, fetched: Fetched): (r: (Storage, Result<string, string>))
    ensures r.0 == st
    ensures r.1.Ok? <==> fetched.Received? && IsOk(fetched.status)
    ensures fetched.Received? && !IsOk(fetched.status) ==> r.1 == Err(RegisterFailed)
    ensures r.1.Ok? ==> r.1.value == fetched.body
  {
    match fetched
    case NetworkError(m) => (st, Err(m))
    case Received(status, body, _, _) =>
      if !IsOk(status) then (st, Err(RegisterFailed)) else (st, Ok(body))
  }

  /** `logout`: the stored token is removed. */
  function Logout(st: Storage): (r: Storage)
    ensures !IsAuthenticated(r)
    ensures r.hasWindow == st.hasWindow
  {
    st.(token := None)
  }

  /** Logging in with an answer carrying token "t1" leaves the browser authenticated with
      exactly that token stored. */
  lemma LoginScenario(st: Storage, body: string)
    requires st.hasWindow
    ensures var (st', r) := Login(st, Received(200, body, None, Text("t1")));
      IsAuthenticated(st') && st'.token == Some("t1") && r == Ok(body)
  {
  }

  /** A 2xx answer without a usable `token` still authenticates the browser: with the
      text "undefined" as its token when the member is missing, "null" when it is null. */
  lemma LoginWithoutTokenAuthenticates(st: Storage, status: nat, body: string)
    requires st.hasWindow && IsOk(status)
    ensures var st' := Login(st, Received(status, body, None, Absent)).0;
      IsAuthenticated(st') && st'.token == Some("undefined")
    ensures var st' := Login(st, Received(status, body, None, Null)).0;
      IsAuthenticated(st') && st'.token == Some("null")
  {
  }
}

=== FILE: errors.dfy ===
/** The backend's HTTP errors: each exception class becomes the status code, detail
    text and headers that FastAPI sends for it. */
module Errors {

  type Headers = map<string, string>

  /** What FastAPI sends for a raised `HTTPException`. */
  datatype HttpError = HttpError(status: nat, detail: string, headers: Headers)

  /** The exception classes of the task API. */
  datatype TaskError =
    | TaskNotFound(taskId: string)
    | UnauthorizedTaskAccess(taskId: string, userId: string)
    | ValidationFailed(detail: string)
    | AuthenticationFailed(detail: string)
    | AuthorizationFailed(detail: string)

  const NotAuthenticated: string := "Not authenticated"
  const NotAuthorized: string := "Not authorized"

  /** `AuthenticationException()` and `AuthorizationException()` with their default details. */
  const DefaultAuthentication: TaskError := AuthenticationFailed(NotAuthenticated)
  const DefaultAuthorization: TaskError := AuthorizationFailed(NotAuthorized)

  /** The challenge header sent with every 401 that asks for a bearer token. */
  const BearerChallenge: Headers := map["WWW-Authenticate" := "Bearer"]

  function NotFoundDetail(taskId: string): string
  {
    "Task with id " + taskId + " not found"
  }

  /** The response each exception class produces. */
  function ToHttp(e: TaskError): (r: HttpError)
    ensures r.status == 404 <==> e.TaskNotFound? || e.UnauthorizedTaskAccess?
    ensures r.status == 422 <==> e.ValidationFailed?
    ensures r.status == 401 <==> e.AuthenticationFailed?
    ensures r.status == 403 <==> e.AuthorizationFailed?
    ensures (e.TaskNotFound? || e.UnauthorizedTaskAccess?) ==> r.detail == NotFoundDetail(e.taskId)
    ensures (e.ValidationFailed? || e.AuthenticationFailed? || e.AuthorizationFailed?) ==> r.detail == e.detail
    ensures "WWW-Authenticate" in r.headers <==> e.AuthenticationFailed?
    ensures e.AuthenticationFailed? ==> r.headers["WWW-Authenticate"] == "Bearer"
  {
    match e
    case TaskNotFound(id) => HttpError(404, NotFoundDetail(id), map[])
    case UnauthorizedTaskAccess(id, _) => HttpError(404, NotFoundDetail(id), map[])
    case ValidationFailed(d) => HttpError(422, d, map[])
    case AuthenticationFailed(d) => HttpError(401, d, BearerChallenge)
    case AuthorizationFailed(d) => HttpError(403, d, map[])
  }

  /** Access to another user's task is answered exactly as a missing task is, whoever
      asks, so a response never reveals that a task id exists. */
  lemma UnauthorizedAccessIndistinguishable(taskId: string, userA: string, userB: string)
    ensures ToHttp(UnauthorizedTaskAccess(taskId, userA)) == ToHttp(UnauthorizedTaskAccess(taskId, userB))
    ensures ToHttp(UnauthorizedTaskAccess(taskId, userA)) == ToHttp(TaskNotFound(taskId))
  {
  }

  /** The default-argument forms of the two auth exceptions. */
  lemma DefaultAuthErrors()
    ensures ToHttp(DefaultAuthentication) == HttpError(401, "Not authenticated", map["WWW-Authenticate" := "Bearer"])
    ensures ToHttp(DefaultAuthorization) == HttpError(403, "Not authorized", map[])
  {
  }
}

=== FILE: fetch.dfy ===
/** What a `fetch` call yields, given to the model as an input: a response, or a
    network failure with the message of the rejected promise. */
module Fetch {
  import opened Wrappers

  /** A member of a parsed JSON body as JavaScript reads it: absent (`undefined`),
      `null`, or a string. */
  datatype Member = Absent | Null | Text(text: string)

  /** `String(v)`: the text `localStorage.setItem` stores for the member. */
  function StoredText(m: Member): (s: string)
    ensures m.Text? ==> s == m.text
    ensures m.Absent? ==> s == "undefined"
    ensures m.Null? ==> s == "null"
  {
    match m
    case Absent => "undefined"
    case Null => "null"
    case Text(t) => t
  }

  /** A received response. `detail` is the body's like-named member when it is present
      and a string; `token` is the body's like-named member. */
  datatype Fetched =
    | Received(status: nat, body: string, detail: Option<string>, token: Member)
    | NetworkError(message: string)

  /** `Response.ok` */
  predicate IsOk(status: nat)
  {
    200 <= status <= 299
  }
}

=== FILE: home_page.dfy ===
/** The task page's list reconciliation: optimistic create, toggle and delete, confirm-first
    update, and loading a page of tasks. Each handler is modelled as if it ran alone; the
    outcome of its API call is an input (the server's answer or the thrown message). */
module HomePage {
  import opened Wrappers
  import opened TaskModel
  import opened AuthSession
  import Fetch
  import TaskForm
  import Api
  import Strings
  import Seqs

  /** What the page does besides changing its list: nothing, navigate to the login page,
      show an alert, or show an alert and then navigate. */
  datatype Effect = Stay | ToLogin | Alert(message: string) | AlertThenLogin(message: string)

  /** The handlers' catch blocks: a message mentioning "401" sends the user to the login
      page, any other message is alerted. */
  function FailureEffect(message: string): (e: Effect)
    ensures e == ToLogin || e == Alert(message)
    ensures e == ToLogin <==> Strings.Contains(message, "401")
  {
    if Strings.Contains(message, "401") then ToLogin else Alert(message)
  }

  /** The list after a handler ran, and its effect. */
  datatype Outcome = Outcome(tasks: seq<Task>, effect: Effect)

  predicate HasId(tasks: seq<Task>, id: string)
  {
    exists i | 0 <= i < |tasks| :: tasks[i].id == id
  }

  predicate UniqueIds(tasks: seq<Task>)
  {
    forall i, j | 0 <= i < |tasks| && 0 <= j < |tasks| && tasks[i].id == tasks[j].id :: i == j
  }

  /** `tasks.find(task => task.id === id)`, as the index of the first match. */
  function FindIndex(tasks: seq<Task>, id: string): (r: Option<nat>)
    ensures r.None? <==> !HasId(tasks, id)
    ensures r.Some? ==> r.value < |tasks| && tasks[r.value].id == id
    ensures r.Some? ==> forall j | 0 <= j < r.value :: tasks[j].id != id
  {
    if |tasks| == 0 then None
    else if tasks[0].id == id then Some(0)
    else
      match FindIndex(tasks[1..], id)
      case None => None
      case Some(k) => Some(k + 1)
  }

  /** `tasks.map(task => task.id === id ? with : task)` */
  function ReplaceById(tasks: seq<Task>, id: string, with: Task): (r: seq<Task>)
    ensures |r| == |tasks|
    ensures forall i | 0 <= i < |tasks| :: tasks[i].id != id ==> r[i] == tasks[i]
    ensures forall i | 0 <= i < |tasks| :: tasks[i].id == id ==> r[i] == with
  {
    seq(|tasks|, i requires 0 <= i < |tasks| => if tasks[i].id == id then with else tasks[i])
  }

  /** `tasks.map(task => task.id === id ? { ...task, status, updated_at: now } : task)` */
  function SetStatus(tasks: seq<Task>, id: string, status: Status, now: Stamp): (r: seq<Task>)
    ensures |r| == |tasks|
    ensures forall i | 0 <= i < |tasks| :: r[i].id == tasks[i].id
    ensures forall i | 0 <= i < |tasks| :: tasks[i].id != id ==> r[i] == tasks[i]
    ensures forall i | 0 <= i < |tasks| :: tasks[i].id == id ==> r[i] == tasks[i].(status := status, updatedAt := now)
  {
    seq(|tasks|, i requires 0 <= i < |tasks| =>
      if tasks[i].id == id then tasks[i].(status := status, updatedAt := now) else tasks[i])
  }

  function NotId(id: string): Task -> bool
  {
    (t: Task) => t.id != id
  }

  /** `tasks.filter(task => task.id !== id)` */
  function WithoutId(tasks: seq<Task>, id: string): (r: seq<Task>)
    ensures !HasId(r, id)
    ensures forall t :: t in r <==> t in tasks && t.id != id
  {
    var r := Seqs.Filter(NotId(id), tasks);
    assert forall i | 0 <= i < |r| :: r[i] in r;
    r
  }

  /** The temporary id of an optimistic create, made from the clock reading. */
  function TempId(now: nat): string
  {
    "temp-" + Strings.NatToString(now)
  }

  /** The optimistic create: the draft is shown first, pending, under the temporary id,
      owned by nobody, created and updated now. */
  function ShowPending(tasks: seq<Task>, draft: TaskForm.Draft, now: nat): (r: seq<Task>)
    ensures |r| == |tasks| + 1 && r[1..] == tasks
    ensures r[0].id == TempId(now) && r[0].status == Pending && r[0].userId == ""
    ensures r[0].title == draft.title && r[0].description == draft.description && r[0].dueDate == draft.dueDate
    ensures r[0].createdAt == now && r[0].updatedAt == now
  {
    [Task(TempId(now), draft.title, draft.description, Pending, draft.dueDate, "", now, now)] + tasks
  }

  /** `handleCreateTask` */
  function HandleCreate(st: Storage, tasks: seq<Task>, draft: TaskForm.Draft, now: nat, outcome: Result<Task, string>): (r: Outcome)
    ensures !IsAuthenticated(st) ==> r == Outcome(tasks, ToLogin)
    ensures !r.effect.AlertThenLogin?
    ensures IsAuthenticated(st) && outcome.Ok? ==> r.effect == Stay
    ensures IsAuthenticated(st) && outcome.Err? ==> r.effect == FailureEffect(outcome.error)
    ensures IsAuthenticated(st) && outcome.Ok? ==>
              r.tasks == ReplaceById(ShowPending(tasks, draft, now), TempId(now), outcome.value)
    ensures IsAuthenticated(st) && outcome.Err? ==> r.tasks == WithoutId(ShowPending(tasks, draft, now), TempId(now))
  {
    if !IsAuthenticated(st) then Outcome(tasks, ToLogin)
    else if st.hasWindow && (st.token.None? || st.token.value == "") then
      Outcome(tasks, AlertThenLogin(Api.NoTokenMessage))
    else
      var tempId := TempId(now);
      var shown := ShowPending(tasks, draft, now);
      match outcome
      case Ok(created) => Outcome(ReplaceById(shown, tempId, created), Stay)
      case Err(m) => Outcome(WithoutId(shown, tempId), FailureEffect(m))
  }

  /** With a temporary id no listed task carries, a successful create leaves the server's
      task first and the previous list after it; a failed one gives back the previous
      list exactly. */
  lemma CreateWithFreshTempId(st: Storage, tasks: seq<Task>, draft: TaskForm.Draft, now: nat, outcome: Result<Task, string>)
    requires IsAuthenticated(st)
    requires !HasId(tasks, TempId(now))
    ensures outcome.Ok? ==> HandleCreate(st, tasks, draft, now, outcome).tasks == [outcome.value] + tasks
    ensures outcome.Err? ==> HandleCreate(st, tasks, draft, now, outcome).tasks == tasks
  {
    var shown := ShowPending(tasks, draft, now);
    assert shown == [shown[0]] + tasks;
    forall t | t in tasks
      ensures NotId(TempId(now))(t)
    {
    }
    if outcome.Ok? {
      assert ReplaceById(shown, TempId(now), outcome.value) == [outcome.value] + tasks;
    } else {
      Seqs.FilterAppend(NotId(TempId(now)), [shown[0]], tasks);
      Seqs.FilterKeepsAll(NotId(TempId(now)), tasks);
      assert Seqs.Filter(NotId(TempId(now)), [shown[0]]) == [];
    }
  }

  /** When the server's id is not yet listed either, exactly one entry carries it. */
  lemma CreateShowsServerIdOnce(st: Storage, tasks: seq<Task>, draft: TaskForm.Draft, now: nat, created: Task)
    requires IsAuthenticated(st)
    requires !HasId(tasks, TempId(now)) && !HasId(tasks, created.id)
    ensures var r := HandleCreate(st, tasks, draft, now, Ok(created)).tasks;
      forall i | 0 <= i < |r| :: r[i].id == created.id <==> i == 0
  {
    CreateWithFreshTempId(st, tasks, draft, now, Ok(created));
    var r := HandleCreate(st, tasks, draft, now, Ok(created)).tasks;
    forall i | 0 < i < |r|
      ensures r[i].id != created.id
    {
      assert r[i] == tasks[i - 1];
    }
  }

  /** `handleUpdateTask`: nothing changes before the server answers; on success every
      entry with the id is replaced by the server's task. */
  function HandleUpdate(st: Storage, tasks: seq<Task>, taskId: string, outcome: Result<Task, string>): (r: Outcome)
    ensures !IsAuthenticated(st) ==> r == Outcome(tasks, ToLogin)
    ensures outcome.Err? ==> r.tasks == tasks
    ensures IsAuthenticated(st) && outcome.Err? ==> r.effect == FailureEffect(outcome.error)
    ensures IsAuthenticated(st) && outcome.Ok? ==> r == Outcome(ReplaceById(tasks, taskId, outcome.value), Stay)
  {
    if !IsAuthenticated(st) then Outcome(tasks, ToLogin)
    else
      match outcome
      case Ok(updated) => Outcome(ReplaceById(tasks, taskId, updated), Stay)
      case Err(m) => Outcome(tasks, FailureEffect(m))
  }

  /** The body the toggle sends: the listed task with the requested status, or nothing
      when the id is not listed. */
  function ToggleBody(tasks: seq<Task>, taskId: string, status: Status): (b: Option<Task>)
    ensures b.None? <==> !HasId(tasks, taskId)
    ensures b.Some? ==> b.value.id == taskId && b.value.status == status
    ensures b.Some? ==> exists i | 0 <= i < |tasks| :: b.value == tasks[i].(status := status)
  {
    match FindIndex(tasks, taskId)
    case None => None
    case Some(k) => Some(tasks[k].(status := status))
  }

  /** `handleToggleTask`: the status is set at `now` before the request; a failed request
      sets the opposite of the requested status, stamped `later`. */
  function HandleToggle(st: Storage, tasks: seq<Task>, taskId: string, status: Status, now: Stamp, later: Stamp,
                        outcome: Result<Task, string>): (r: Outcome)
    ensures !IsAuthenticated(st) ==> r == Outcome(tasks, ToLogin)
    ensures IsAuthenticated(st) && !HasId(tasks, taskId) ==> r == Outcome(tasks, Stay)
    ensures IsAuthenticated(st) && HasId(tasks, taskId) && outcome.Ok? ==>
              r == Outcome(ReplaceById(tasks, taskId, outcome.value), Stay)
    ensures IsAuthenticated(st) && HasId(tasks, taskId) && outcome.Err? ==>
              r == Outcome(SetStatus(tasks, taskId, Flip(status), later), FailureEffect(outcome.error))
  {
    if !IsAuthenticated(st) then Outcome(tasks, ToLogin)
    else
      var shown := SetStatus(tasks, taskId, status, now);
      if ToggleBody(tasks, taskId, status).None? then
        assert shown == tasks;
        Outcome(shown, Stay)
      else
        match outcome
        case Ok(updated) =>
          assert ReplaceById(shown, taskId, updated) == ReplaceById(tasks, taskId, updated);
          Outcome(ReplaceById(shown, taskId, updated), Stay)
        case Err(m) =>
          var reverted := SetStatus(shown, taskId, if status == Completed then Pending else Completed, later);
          assert reverted == SetStatus(tasks, taskId, Flip(status), later);
          Outcome(reverted, FailureEffect(m))
  }

  /** The optimistic toggle changes only the target's status and update time. */
  lemma ToggleShowsOnlyTarget(tasks: seq<Task>, taskId: string, status: Status, now: Stamp, i: nat)
    requires i < |tasks|
    ensures tasks[i].id != taskId ==> SetStatus(tasks, taskId, status, now)[i] == tasks[i]
    ensures tasks[i].id == taskId ==>
              SetStatus(tasks, taskId, status, now)[i].(status := tasks[i].status, updatedAt := tasks[i].updatedAt) == tasks[i]
  {
  }

  /** When the requested status was the card's flip of the listed one, a failed toggle
      gives the task its old status back, but with the later update time: the list
      equals the old one only if that time equals the task's old update time. */
  lemma ToggleRollbackRestamps(st: Storage, tasks: seq<Task>, k: nat, now: Stamp, later: Stamp, message: string)
    requires IsAuthenticated(st) && UniqueIds(tasks) && k < |tasks|
    ensures var r := HandleToggle(st, tasks, tasks[k].id, Flip(tasks[k].status), now, later, Err(message)).tasks;
      && |r| == |tasks|
      && r[k] == tasks[k].(updatedAt := later)
      && (forall i | 0 <= i < |tasks| && i != k :: r[i] == tasks[i])
      && (r == tasks <==> tasks[k].updatedAt == later)
  {
    var s := Flip(tasks[k].status);
    FlipInvolutive(tasks[k].status);
    var r := HandleToggle(st, tasks, tasks[k].id, s, now, later, Err(message)).tasks;
    assert HasId(tasks, tasks[k].id);
    assert r == SetStatus(tasks, tasks[k].id, tasks[k].status, later);
    if r == tasks {
      assert r[k].updatedAt == later;
    }
    if tasks[k].updatedAt == later {
      assert r == tasks;
    }
  }

  /** `handleDeleteTask`: the confirmed delete of a listed task hides every entry with
      its id; a failed request appends the first of them at the tail. */
  function HandleDelete(st: Storage, tasks: seq<Task>, taskId: string, confirmed: bool, outcome: Result<(), string>): (r: Outcome)
    ensures !IsAuthenticated(st) ==> r == Outcome(tasks, ToLogin)
    ensures IsAuthenticated(st) && (!confirmed || !HasId(tasks, taskId)) ==> r == Outcome(tasks, Stay)
    ensures IsAuthenticated(st) && confirmed && HasId(tasks, taskId) && outcome.Ok? ==>
              r == Outcome(WithoutId(tasks, taskId), Stay)
    ensures IsAuthenticated(st) && confirmed && HasId(tasks, taskId) && outcome.Err? ==>
              && r.effect == FailureEffect(outcome.error)
              && r.tasks == WithoutId(tasks, taskId) + [tasks[FindIndex(tasks, taskId).value]]
  {
    if !IsAuthenticated(st) then Outcome(tasks, ToLogin)
    else if !confirmed then Outcome(tasks, Stay)
    else
      match FindIndex(tasks, taskId)
      case None => Outcome(tasks, Stay)
      case Some(k) =>
        var hidden := WithoutId(tasks, taskId);
        match outcome
        case Ok(_) => Outcome(hidden, Stay)
        case Err(m) => Outcome(hidden + [tasks[k]], FailureEffect(m))
  }

  /** With unique ids, a stretch of the list without entry `k` has no entry with its id. */
  lemma SliceKeepsAll(tasks: seq<Task>, k: nat, lo: nat, hi: nat)
    requires UniqueIds(tasks) && k < |tasks| && lo <= hi <= |tasks| && (k < lo || hi <= k)
    ensures Seqs.Filter(NotId(tasks[k].id), tasks[lo..hi]) == tasks[lo..hi]
  {
    var s := tasks[lo..hi];
    forall t | t in s
      ensures NotId(tasks[k].id)(t)
    {
      var i :| 0 <= i < |s| && s[i] == t;
      assert tasks[lo + i] == t;
    }
    Seqs.FilterKeepsAll(NotId(tasks[k].id), s);
  }

  /** With unique ids, hiding a listed task is removing its one entry. */
  lemma WithoutUniqueId(tasks: seq<Task>, k: nat)
    requires UniqueIds(tasks) && k < |tasks|
    ensures WithoutId(tasks, tasks[k].id) == tasks[..k] + tasks[k + 1..]
  {
    SliceKeepsAll(tasks, k, 0, k);
    SliceKeepsAll(tasks, k, k + 1, |tasks|);
    assert tasks[0..k] == tasks[..k];
    assert tasks[k + 1..|tasks|] == tasks[k + 1..];
    Seqs.FilterDropsOne(NotId(tasks[k].id), tasks, k);
  }

  /** With unique ids, a failed delete gives back the same tasks, the deleted one moved
      to the tail, where it is the only entry with its id. */
  lemma {:induction false} DeleteRollbackMovesToTail(st: Storage, tasks: seq<Task>, k: nat, message: string)
    requires IsAuthenticated(st) && UniqueIds(tasks) && k < |tasks|
    ensures var r := HandleDelete(st, tasks, tasks[k].id, true, Err(message)).tasks;
      && multiset(r) == multiset(tasks)
      && |r| == |tasks| && r[|r| - 1] == tasks[k]
      && (forall i | 0 <= i < |r| - 1 :: r[i].id != tasks[k].id)
  {
    var id := tasks[k].id;
    assert HasId(tasks, id);
    assert FindIndex(tasks, id) == Some(k);
    WithoutUniqueId(tasks, k);
    var r := HandleDelete(st, tasks, id, true, Err(message)).tasks;
    assert r == tasks[..k] + tasks[k + 1..] + [tasks[k]];
    assert tasks == tasks[..k] + [tasks[k]] + tasks[k + 1..];
    forall i | 0 <= i < |r| - 1
      ensures r[i].id != id
    {
      if i < k {
        assert r[i] == tasks[i];
      } else {
        assert r[i] == tasks[i + 1];
      }
    }
  }

  /** A page of the listing as the page reads it: the tasks and `pagination.pages`. */
  datatype Listing = Listing(tasks: seq<Task>, pages: nat)

  /** The page's list and page count. */
  datatype View = View(tasks: seq<Task>, totalPages: int)

  /** `loadTasks`: a listing replaces the list and the page count wholesale; a failure
      keeps both. */
  function LoadTasks(st: Storage, v: View, outcome: Result<Listing, string>): (r: (View, Effect))
    ensures !IsAuthenticated(st) ==> r == (v, ToLogin)
    ensures IsAuthenticated(st) && outcome.Ok? ==>
              r == (View(outcome.value.tasks, outcome.value.pages), Stay)
    ensures IsAuthenticated(st) && outcome.Err? ==> r == (v, FailureEffect(outcome.error))
  {
    if !IsAuthenticated(st) then (v, ToLogin)
    else
      match outcome
      case Ok(l) => (View(l.tasks, l.pages), Stay)
      case Err(m) => (v, FailureEffect(m))
  }

  /** The pagination buttons: pages 1 to `totalPages` in order, shown only when there is
      more than one page. */
  function PageButtons(totalPages: int): (r: seq<nat>)
    ensures totalPages <= 1 <==> r == []
    ensures totalPages > 1 ==> |r| == totalPages
    ensures forall i | 0 <= i < |r| :: r[i] == i + 1
  {
    if totalPages > 1 then seq(totalPages, i requires 0 <= i < totalPages => i + 1) else []
  }

  /** A page has a button exactly when it is one of several pages. */
  lemma PageButtonsAreAllPages(totalPages: int, p: int)
    ensures p in PageButtons(totalPages) <==> totalPages > 1 && 1 <= p <= totalPages
  {
    if totalPages > 1 && 1 <= p <= totalPages {
      assert PageButtons(totalPages)[p - 1] == p;
    }
  }

  /** `handleLogout`: the token is removed and the login page shown. */
  function HandleLogout(st: Storage): (r: (Storage, Effect))
    ensures !IsAuthenticated(r.0) && r.0.hasWindow == st.hasWindow
    ensures r.1 == ToLogin
  {
    (Logout(st), ToLogin)
  }

  /** A request answered 401 throws a message without the text "401", so the page alerts
      it instead of sending the user to the login page. */
  lemma ExpiredSessionIsAlerted(st: Storage, caller: Api.Headers, body: string, detail: Option<string>, token: Fetch.Member)
    requires IsAuthenticated(st)
    ensures var c := Api.Request(st, caller, Fetch.Received(401, body, detail, token));
      c.result.Err? && FailureEffect(c.result.error) == Alert(Api.AuthFailedMessage)
  {
    var m := Api.AuthFailedMessage;
    assert forall i | 0 <= i < |m| :: m[i] != '4';
    assert "401"[0] == '4';
    Strings.NotContainsWithoutChar(m, "401", '4');
  }
}

=== FILE: jwt_bearer.dfy ===
/** The bearer-token gate in front of every task endpoint: FastAPI's `HTTPBearer`, which
    splits the `Authorization` header, and the application's `JWTBearer` on top of it.
    Token verification is a foreign call and is passed in as an uninterpreted function
    from token to claims. */
module JwtBearer {
  import opened Wrappers
  import opened Errors

  /** The `Authorization` header split into scheme and credentials by the base class. */
  datatype Credentials = Credentials(scheme: string, token: string)

  /** `str.partition(" ")`: the text before the first space and the text after it; the
      whole text and nothing when there is no space. */
  function Partition(h: string): (r: (string, string))
    ensures forall k :: 0 <= k < |r.0| ==> r.0[k] != ' '
    ensures (exists k :: 0 <= k < |h| && h[k] == ' ') ==> h == r.0 + " " + r.1
    ensures (forall k :: 0 <= k < |h| ==> h[k] != ' ') ==> r == (h, "")
  {
    if |h| == 0 then ("", "")
    else if h[0] == ' ' then
      assert h == "" + " " + h[1..];
      ("", h[1..])
    else
      var (a, b) := Partition(h[1..]);
      assert h == [h[0]] + h[1..];
      ([h[0]] + a, b)
  }

  /** A scheme, a space and credentials are split back into that scheme and those
      credentials, whatever spaces the credentials hold. */
  lemma {:induction false} PartitionRoundTrip(scheme: string, token: string)
    requires forall k :: 0 <= k < |scheme| ==> scheme[k] != ' '
    ensures Partition(scheme + " " + token) == (scheme, token)
    decreases |scheme|
  {
    var h := scheme + " " + token;
    if |scheme| == 0 {
      assert h[1..] == token;
    } else {
      assert h[0] == scheme[0];
      assert h[1..] == scheme[1..] + " " + token;
      PartitionRoundTrip(scheme[1..], token);
      assert [scheme[0]] + scheme[1..] == scheme;
    }
  }

  /** `str.lower()` on the letters A to Z. Other characters are kept: no character outside
      ASCII lowers to a letter of "bearer", so the comparison below is unaffected. */
  function LowerAscii(s: string): (r: string)
    ensures |r| == |s|
    ensures forall k :: 0 <= k < |s| ==> r[k] == if 'A' <= s[k] <= 'Z' then (s[k] as int + 32) as char else s[k]
  {
    seq(|s|, k requires 0 <= k < |s| => if 'A' <= s[k] <= 'Z' then (s[k] as int + 32) as char else s[k])
  }

  const NotAuthenticated: HttpError := HttpError(403, "Not authenticated", map[])
  const InvalidCredentials: HttpError := HttpError(403, "Invalid authentication credentials", map[])

  /** `HTTPBearer.__call__` with `auto_error=True`: a missing or empty header, or one whose
      scheme or credentials part is empty, is refused as unauthenticated; a scheme that is
      not "bearer" in any mix of cases is refused as invalid; otherwise the two parts. */
  function HttpBearer(header: Option<string>): (r: Result<Credentials, HttpError>)
    ensures header.None? ==> r == Err(NotAuthenticated)
    ensures header.Some? && (Partition(header.value).0 == "" || Partition(header.value).1 == "") ==> r == Err(NotAuthenticated)
    ensures r.Err? ==> r.error == NotAuthenticated || r.error == InvalidCredentials
    ensures r.Ok? ==>
      && header.Some? && header.value == r.value.scheme + " " + r.value.token
      && r.value.token != "" && LowerAscii(r.value.scheme) == "bearer"
      && forall k :: 0 <= k < |r.value.scheme| ==> r.value.scheme[k] != ' '
  {
    match header
    case None => Err(NotAuthenticated)
    case Some(h) =>
      var (scheme, credentials) := Partition(h);
      if h == "" || scheme == "" || credentials == "" then Err(NotAuthenticated)
      else if LowerAscii(scheme) != "bearer" then Err(InvalidCredentials)
      else Ok(Credentials(scheme, credentials))
  }

  /** A header written as a scheme, a space and a non-empty token passes the base class
      exactly when the scheme is "bearer" in some mix of cases, and is split back into
      its parts. */
  lemma HttpBearerReadsHeader(scheme: string, token: string)
    requires scheme != "" && token != ""
    requires forall k :: 0 <= k < |scheme| ==> scheme[k] != ' '
    ensures HttpBearer(Some(scheme + " " + token)).Ok? <==> LowerAscii(scheme) == "bearer"
    ensures LowerAscii(scheme) == "bearer" ==> HttpBearer(Some(scheme + " " + token)) == Ok(Credentials(scheme, token))
    ensures LowerAscii(scheme) != "bearer" ==> HttpBearer(Some(scheme + " " + token)) == Err(InvalidCredentials)
  {
    PartitionRoundTrip(scheme, token);
  }

  /** A verified token's claims. */
  type Claims = map<string, string>

  /** A passed gate: the raw token, and the `sub` claim stored as the request's user id. */
  datatype Authorized = Authorized(token: string, userId: Option<string>)

  const InvalidScheme: HttpError := HttpError(403, "Invalid authentication scheme.", map[])
  const InvalidToken: HttpError := HttpError(401, "Invalid or expired token.", BearerChallenge)
  const InvalidCode: HttpError := HttpError(403, "Invalid authorization code.", map[])

  /** `dict.get("sub")` */
  function Subject(claims: Claims): (r: Option<string>)
    ensures r.Some? <==> "sub" in claims
    ensures r.Some? ==> r.value == claims["sub"]
  {
    if "sub" in claims then Some(claims["sub"]) else None
  }

  /** The verifier's answer is falsy when it is `None` or an empty dict. */
  predicate Falsy(v: Option<Claims>)
  {
    v.None? || v.value == map[]
  }

  /** The body of `JWTBearer.__call__` after the base class has answered. */
  function CheckCredentials(creds: Option<Credentials>, verify: string -> Option<Claims>): (r: Result<Authorized, HttpError>)
    ensures creds.None? ==> r == Err(InvalidCode)
    ensures creds.Some? && creds.value.scheme != "Bearer" ==> r == Err(InvalidScheme)
    ensures creds.Some? && creds.value.scheme == "Bearer" && Falsy(verify(creds.value.token)) ==> r == Err(InvalidToken)
    ensures r.Ok? <==> creds.Some? && creds.value.scheme == "Bearer" && !Falsy(verify(creds.value.token))
    ensures r.Ok? ==> r.value.token == creds.value.token && r.value.userId == Subject(verify(creds.value.token).value)
  {
    match creds
    case None => Err(InvalidCode)
    case Some(c) =>
      if c.scheme != "Bearer" then Err(InvalidScheme)
      else
        var claims := verify(c.token);
        if Falsy(claims) then Err(InvalidToken)
        else Ok(Authorized(c.token, Subject(claims.value)))
  }

  /** `JWTBearer.__call__` on the request's `Authorization` header: the base class, then
      the scheme check, the verifier and the `sub` claim. */
  function Authorize(header: Option<string>, verify: string -> Option<Claims>): (r: Result<Authorized, HttpError>)
    ensures HttpBearer(header).Err? ==> r == Err(HttpBearer(header).error)
    ensures HttpBearer(header).Ok? ==> r == CheckCredentials(Some(HttpBearer(header).value), verify)
    ensures r.Ok? ==>
      && header == Some("Bearer " + r.value.token) && r.value.token != ""
      && !Falsy(verify(r.value.token)) && r.value.userId == Subject(verify(r.value.token).value)
    ensures r != Err(InvalidCode)
  {
    match HttpBearer(header)
    case Err(e) => Err(e)
    case Ok(c) =>
      assert "Bearer" + " " == "Bearer ";
      CheckCredentials(Some(c), verify)
  }

  /** The converse: "Bearer", a space and a non-empty token the verifier accepts pass the
      gate, with the token's `sub` claim as the user. */
  lemma BearerTokenAccepted(token: string, verify: string -> Option<Claims>)
    requires token != "" && !Falsy(verify(token))
    ensures Authorize(Some("Bearer " + token), verify) == Ok(Authorized(token, Subject(verify(token).value)))
  {
    assert "Bearer" + " " + token == "Bearer " + token;
    assert LowerAscii("Bearer") == "bearer";
    HttpBearerReadsHeader("Bearer", token);
  }

  /** When the header's scheme part is not exactly "Bearer", or its token part is empty, the
      answer does not depend on the verifier, and is a 403. */
  lemma VerifierNotConsultedOnBadScheme(header: Option<string>, v1: string -> Option<Claims>, v2: string -> Option<Claims>)
    requires header.None? || Partition(header.value).0 != "Bearer" || Partition(header.value).1 == ""
    ensures Authorize(header, v1) == Authorize(header, v2)
    ensures Authorize(header, v1).Err? && Authorize(header, v1).error.status == 403
  {
  }

  /** "bearer" in lower case passes the base class but not the exact comparison after it. */
  lemma LowerCaseSchemeRefused(token: string, verify: string -> Option<Claims>)
    requires token != ""
    ensures Authorize(Some("bearer " + token), verify) == Err(InvalidScheme)
  {
    assert "bearer" + " " + token == "bearer " + token;
    assert LowerAscii("bearer") == "bearer";
    HttpBearerReadsHeader("bearer", token);
  }

  /** A header carrying the scheme and no token is refused by the base class, before the
      token is looked at. */
  lemma EmptyTokenNotAuthenticated(verify: string -> Option<Claims>)
    ensures Authorize(Some("Bearer "), verify) == Err(NotAuthenticated)
    ensures Authorize(Some("Bearer"), verify) == Err(NotAuthenticated)
    ensures Authorize(None, verify) == Err(NotAuthenticated)
  {
    PartitionRoundTrip("Bearer", "");
    assert "Bearer" + " " + "" == "Bearer ";
    assert forall k :: 0 <= k < |"Bearer"| ==> "Bearer"[k] != ' ';
  }
}

=== FILE: query.dfy ===
/** URL query parameters as an ordered list of key/value pairs. */
module Query {
  import opened Wrappers

  type Param = (string, string)

  /** `k1=v1&k2=v2&…`. Percent-encoding is not modelled: every key and value the
      clients send is made of letters, digits and `_`, which need none. */
  function QueryString(ps: seq<Param>): string
  {
    if |ps| == 0 then ""
    else if |ps| == 1 then ps[0].0 + "=" + ps[0].1
    else ps[0].0 + "=" + ps[0].1 + "&" + QueryString(ps[1..])
  }

  /** The value the server reads for a scalar parameter: the last one sent under that key. */
  function Lookup(ps: seq<Param>, key: string): (r: Option<string>)
    ensures r.None? <==> forall i :: 0 <= i < |ps| ==> ps[i].0 != key
    ensures r.Some? ==> exists i :: 0 <= i < |ps| && ps[i] == (key, r.value)
  {
    if |ps| == 0 then None
    else if ps[|ps| - 1].0 == key then Some(ps[|ps| - 1].1)
    else Lookup(ps[..|ps| - 1], key)
  }
}

=== FILE: router.dfy ===
/** One request to the tasks router, end to end: the bearer gate runs first, then
    FastAPI's coercion and validation of the query and body (a 422 on failure), then
    the handler. */
module Router {
  import opened Wrappers
  import opened TaskModel
  import opened Errors
  import opened Query
  import Strings
  import JwtBearer
  import TaskService
  import TasksApi

  datatype Route =
    | ListRoute(params: seq<Param>)
    | CreateRoute(create: TaskCreate)
    | GetRoute(taskId: string)
    | UpdateRoute(taskId: string, update: TaskUpdate)
    | StatusRoute(taskId: string, statusUpdate: TaskUpdateStatus)
    | DeleteRoute(taskId: string)

  /** FastAPI's request-validation failure. Its detail, a structured list of the failed
      fields, is summarised by one fixed text. */
  const RequestValidation: HttpError := HttpError(422, "Request validation failed", map[])

  /** Rust's `char::is_whitespace`, the Unicode White_Space property: what pydantic strips
      from both ends of a string before reading it as an integer. */
  predicate IsWhiteSpace(c: char)
  {
    var n := c as int;
    (0x09 <= n <= 0x0D) || n == 0x20 || n == 0x85 || n == 0xA0 || n == 0x1680 || (0x2000 <= n <= 0x200A)
    || n == 0x2028 || n == 0x2029 || n == 0x202F || n == 0x205F || n == 0x3000
  }

  /** The text before a decimal point that is followed only by zeros ("3." and "3.00" give
      "3"); nothing when there is no point or another character follows it. */
  function WithoutZeroFraction(s: string): (r: Option<string>)
    ensures r.Some? <==> Strings.IndexOf(s, '.').Some? && forall k :: Strings.IndexOf(s, '.').value < k < |s| ==> s[k] == '0'
    ensures r.Some? ==> r.value == s[..Strings.IndexOf(s, '.').value]
  {
    match Strings.IndexOf(s, '.')
    case None => None
    case Some(i) => if forall k :: i < k < |s| ==> s[k] == '0' then Some(s[..i]) else None
  }

  /** pydantic's reading of a string as an integer: the white space around it is stripped,
      then it is an optionally signed run of digits, or one followed by a zero fraction. */
  function IntOfText(s: string): (r: Option<int>)
    ensures (forall k :: 0 <= k < |s| ==> IsWhiteSpace(s[k])) ==> r.None?
    ensures Strings.ParseInt(Strings.Trim(IsWhiteSpace, s)).Some? ==> r == Strings.ParseInt(Strings.Trim(IsWhiteSpace, s))
  {
    Strings.TrimEmptyIffBlank(IsWhiteSpace, s);
    IntOfStripped(Strings.Trim(IsWhiteSpace, s))
  }

  /** The reading of text already stripped of white space. */
  function IntOfStripped(t: string): (r: Option<int>)
    ensures t == [] ==> r.None?
    ensures Strings.ParseInt(t).Some? ==> r == Strings.ParseInt(t)
  {
    match Strings.ParseInt(t)
    case Some(n) => Some(n)
    case None =>
      match WithoutZeroFraction(t)
      case Some(u) => Strings.ParseInt(u)
      case None => None
  }

  /** An integer query parameter: its default when absent, its value when the text reads as
      an integer, a validation failure otherwise. */
  function BindInt(v: Option<string>, default: int): (r: Option<int>)
    ensures v.None? ==> r == Some(default)
    ensures v.Some? ==> r == IntOfText(v.value)
  {
    match v
    case None => Some(default)
    case Some(s) => IntOfText(s)
  }

  /** White space around a value that neither starts nor ends with white space does not
      change how it reads. */
  lemma PaddingIgnored(lead: string, x: string, trail: string)
    requires forall k :: 0 <= k < |lead| ==> IsWhiteSpace(lead[k])
    requires forall k :: 0 <= k < |trail| ==> IsWhiteSpace(trail[k])
    requires x == [] || (!IsWhiteSpace(x[0]) && !IsWhiteSpace(x[|x| - 1]))
    ensures IntOfText(lead + x + trail) == IntOfText(x)
  {
    Strings.TrimPadded(IsWhiteSpace, lead, x, trail);
    Strings.TrimPadded(IsWhiteSpace, [], x, []);
    assert [] + x + [] == x;
  }

  lemma Unpadded(x: string)
    requires x == [] || (!IsWhiteSpace(x[0]) && !IsWhiteSpace(x[|x| - 1]))
    ensures Strings.Trim(IsWhiteSpace, x) == x
  {
    Strings.TrimPadded(IsWhiteSpace, [], x, []);
    assert [] + x + [] == x;
  }

  lemma ReadsNumeral(x: string, n: int)
    requires Strings.Trim(IsWhiteSpace, x) == x
    requires Strings.ParseInt(x) == Some(n)
    ensures IntOfText(x) == Some(n)
  {
  }

  lemma ReadsPadded(lead: string, x: string, trail: string, n: int, default: int)
    requires forall k :: 0 <= k < |lead| ==> IsWhiteSpace(lead[k])
    requires forall k :: 0 <= k < |trail| ==> IsWhiteSpace(trail[k])
    requires x != [] && !IsWhiteSpace(x[0]) && !IsWhiteSpace(x[|x| - 1])
    requires Strings.ParseInt(x) == Some(n)
    ensures BindInt(Some(lead + x + trail), default) == Some(n)
  {
    Unpadded(x);
    ReadsNumeral(x, n);
    PaddingIgnored(lead, x, trail);
  }

  lemma ReadsZeroFraction(f: string, x: string, n: int)
    requires Strings.Trim(IsWhiteSpace, f) == f
    requires Strings.ParseInt(f).None? && WithoutZeroFraction(f) == Some(x)
    requires Strings.ParseInt(x) == Some(n)
    ensures IntOfText(f) == Some(n)
  {
  }

  /** Any integer written in decimal, with or without white space around it, is read
      back. */
  lemma BindIntReadsNumerals(n: int, lead: string, trail: string, default: int)
    requires forall k :: 0 <= k < |lead| ==> IsWhiteSpace(lead[k])
    requires forall k :: 0 <= k < |trail| ==> IsWhiteSpace(trail[k])
    ensures BindInt(Some(lead + Strings.IntToString(n) + trail), default) == Some(n)
  {
    Strings.IntToStringRoundTrip(n);
    ReadsPadded(lead, Strings.IntToString(n), trail, n, default);
  }

  /** The same with an explicit plus sign before a non-negative integer. */
  lemma BindIntReadsPlusSign(n: int, lead: string, trail: string, default: int)
    requires n >= 0
    requires forall k :: 0 <= k < |lead| ==> IsWhiteSpace(lead[k])
    requires forall k :: 0 <= k < |trail| ==> IsWhiteSpace(trail[k])
    ensures BindInt(Some(lead + ("+" + Strings.IntToString(n)) + trail), default) == Some(n)
  {
    var x := Strings.IntToString(n);
    var p := "+" + x;
    Strings.IntToStringRoundTrip(n);
    assert p[0] == '+' && p[|p| - 1] == x[|x| - 1];
    ReadsPadded(lead, p, trail, n, default);
  }

  /** A point-free text followed by a point and zeros has its point right after the text,
      and the zero fraction gives the text back. */
  lemma PointAfter(x: string, zeros: nat)
    requires forall i :: 0 <= i < |x| ==> x[i] != '.'
    ensures Strings.IndexOf(x + "." + seq(zeros, _ => '0'), '.') == Some(|x|)
    ensures WithoutZeroFraction(x + "." + seq(zeros, _ => '0')) == Some(x)
  {
    var f := x + "." + seq(zeros, _ => '0');
    assert f[|x|] == '.';
    assert forall k :: |x| < k < |f| ==> f[k] == '0';
    assert f[..|x|] == x;
  }

  /** A point after the first character rules out a signed numeral. */
  lemma PointIsNotNumeral(f: string, i: nat)
    requires 1 <= i < |f| && f[i] == '.'
    ensures Strings.ParseInt(f).None?
  {
    assert !Strings.IsDigit(f[i]);
    assert f[1..][i - 1] == f[i];
  }

  /** A decimal integer followed by a point and any number of zeros is read as that
      integer. */
  lemma BindIntReadsZeroFraction(n: int, zeros: nat, default: int)
    ensures BindInt(Some(Strings.IntToString(n) + "." + seq(zeros, _ => '0')), default) == Some(n)
  {
    var x := Strings.IntToString(n);
    Strings.IntToStringRoundTrip(n);
    var f := x + "." + seq(zeros, _ => '0');
    assert f[|f| - 1] == '.' || f[|f| - 1] == '0';
    assert f[0] == x[0];
    Unpadded(f);
    PointAfter(x, zeros);
    PointIsNotNumeral(f, |x|);
    ReadsZeroFraction(f, x, n);
  }

  /** A blank value, or one with a character other than a sign, a digit, white space or a
      point, is refused. */
  lemma BindIntRefuses(default: int)
    ensures BindInt(Some(""), default).None?
    ensures BindInt(Some("  "), default).None?
    ensures BindInt(Some("two"), default).None?
  {
    assert !Strings.IsDigit('t');
    assert Strings.IndexOf("two", '.').None?;
  }

  /** The listing's parameters read from the query: `status_filter`, `page` (default 1,
      at least 1), `limit` (default 10, between 1 and 100), `sort_by` (default
      "created_at") and `order` (default "desc"). */
  function BindListQuery(ps: seq<Param>): (r: Result<TasksApi.ListQuery, HttpError>)
    ensures r.Ok? ==> TasksApi.QueryInRange(r.value)
    ensures r.Ok? ==> r.value.statusFilter == (match Lookup(ps, "status_filter") case None => None case Some(v) => ParseStatus(v))
    ensures Lookup(ps, "status_filter").Some? && ParseStatus(Lookup(ps, "status_filter").value).None? ==> r == Err(RequestValidation)
    ensures r.Ok? ==> r.value.sortBy == Lookup(ps, "sort_by").GetOr("created_at") && r.value.order == Lookup(ps, "order").GetOr("desc")
    ensures Lookup(ps, "page").None? && Lookup(ps, "limit").None? && Lookup(ps, "status_filter").None? ==>
      r.Ok? && r.value.page == 1 && r.value.limit == 10
    ensures r.Ok? ==>
      && Some(r.value.page) == BindInt(Lookup(ps, "page"), 1)
      && Some(r.value.limit) == BindInt(Lookup(ps, "limit"), 10)
    ensures BindInt(Lookup(ps, "page"), 1).None? || BindInt(Lookup(ps, "limit"), 10).None? ==> r == Err(RequestValidation)
    ensures BindInt(Lookup(ps, "page"), 1).Some? && BindInt(Lookup(ps, "limit"), 10).Some? ==>
      var page, limit := BindInt(Lookup(ps, "page"), 1).value, BindInt(Lookup(ps, "limit"), 10).value;
      !(page >= TasksApi.PageMin && TasksApi.LimitMin <= limit <= TasksApi.LimitMax) ==> r == Err(RequestValidation)
    ensures r.Ok? <==>
      && (Lookup(ps, "status_filter").None? || ParseStatus(Lookup(ps, "status_filter").value).Some?)
      && BindInt(Lookup(ps, "page"), 1).Some? && BindInt(Lookup(ps, "limit"), 10).Some?
      && BindInt(Lookup(ps, "page"), 1).value >= TasksApi.PageMin
      && TasksApi.LimitMin <= BindInt(Lookup(ps, "limit"), 10).value <= TasksApi.LimitMax
    ensures r.Err? ==> r.error == RequestValidation
  {
    var status :=
      match Lookup(ps, "status_filter")
      case None => Some(None)
      case Some(v) => if ParseStatus(v).Some? then Some(ParseStatus(v)) else None;
    var page := BindInt(Lookup(ps, "page"), 1);
    var limit := BindInt(Lookup(ps, "limit"), 10);
    if status.None? || page.None? || limit.None? then Err(RequestValidation)
    else
      var q := TasksApi.ListQuery(status.value, page.value, limit.value,
                                  Lookup(ps, "sort_by").GetOr("created_at"), Lookup(ps, "order").GetOr("desc"));
      if TasksApi.QueryInRange(q) then Ok(q) else Err(RequestValidation)
  }

  /** Serve one request against the table. The `Authorization` header, the new key and the
      clock readings are inputs. */
  function Handle(store: TaskService.Store, header: Option<string>, verify: string -> Option<JwtBearer.Claims>,
                  route: Route, newId: string, clock: Clock): (r: (TaskService.Store, TasksApi.Reply))
    requires TaskService.UniqueIds(store)
    ensures JwtBearer.Authorize(header, verify).Err? ==> r == (store, Err(JwtBearer.Authorize(header, verify).error))
    ensures JwtBearer.Authorize(header, verify).Ok? && !TasksApi.HasUser(JwtBearer.Authorize(header, verify).value.userId) ==>
      r.1.Err? && r.1.error.status in {401, 422} && r.0 == store
    ensures JwtBearer.Authorize(header, verify).Ok? && route.CreateRoute? && !ValidCreate(route.create) ==>
      r == (store, Err(RequestValidation))
    ensures JwtBearer.Authorize(header, verify).Ok? && route.UpdateRoute? && !ValidUpdate(route.update) ==>
      r == (store, Err(RequestValidation))
    ensures JwtBearer.Authorize(header, verify).Ok? && route.ListRoute? ==>
      var uid := JwtBearer.Authorize(header, verify).value.userId;
      && (BindListQuery(route.params).Err? ==> r == (store, Err(RequestValidation)))
      && (BindListQuery(route.params).Ok? ==> r == (store, TasksApi.ListTasks(store, uid, BindListQuery(route.params).value)))
    ensures JwtBearer.Authorize(header, verify).Ok? && route.CreateRoute? && ValidCreate(route.create) ==>
      r == TasksApi.CreateTask(store, JwtBearer.Authorize(header, verify).value.userId, route.create, newId, clock.createdUtc, clock.updatedUtc)
    ensures JwtBearer.Authorize(header, verify).Ok? && route.GetRoute? ==>
      r == (store, TasksApi.GetTask(store, JwtBearer.Authorize(header, verify).value.userId, route.taskId))
    ensures JwtBearer.Authorize(header, verify).Ok? && route.UpdateRoute? && ValidUpdate(route.update) ==>
      r == TasksApi.UpdateTask(store, JwtBearer.Authorize(header, verify).value.userId, route.taskId, route.update, clock.local)
    ensures JwtBearer.Authorize(header, verify).Ok? && route.StatusRoute? ==>
      r == TasksApi.UpdateTaskStatus(store, JwtBearer.Authorize(header, verify).value.userId, route.taskId, route.statusUpdate, clock.local)
    ensures JwtBearer.Authorize(header, verify).Ok? && route.DeleteRoute? ==>
      r == TasksApi.DeleteTask(store, JwtBearer.Authorize(header, verify).value.userId, route.taskId)
    ensures r.1.Err? ==> r.0 == store
    ensures TaskService.Invariant(store) ==> TaskService.Invariant(r.0)
  {
    match JwtBearer.Authorize(header, verify)
    case Err(e) => (store, Err(e))
    case Ok(auth) =>
      var uid := auth.userId;
      match route
      case ListRoute(ps) =>
        (match BindListQuery(ps)
         case Err(e) => (store, Err(e))
         case Ok(q) => (store, TasksApi.ListTasks(store, uid, q)))
      case CreateRoute(c) =>
        if !ValidCreate(c) then (store, Err(RequestValidation))
        else TasksApi.CreateTask(store, uid, c, newId, clock.createdUtc, clock.updatedUtc)
      case GetRoute(id) => (store, TasksApi.GetTask(store, uid, id))
      case UpdateRoute(id, u) =>
        if !ValidUpdate(u) then (store, Err(RequestValidation))
        else TasksApi.UpdateTask(store, uid, id, u, clock.local)
      case StatusRoute(id, u) => TasksApi.UpdateTaskStatus(store, uid, id, u, clock.local)
      case DeleteRoute(id) => TasksApi.DeleteTask(store, uid, id)
  }

  /** A request with "Bearer " and a token whose verified subject owns the task reads that
      task with 200, through the whole chain of gate, binding and handler. */
  lemma BearerReadsOwnedTask(store: TaskService.Store, token: string, verify: string -> Option<JwtBearer.Claims>,
                             userId: string, taskId: string, newId: string, clock: Clock)
    requires TaskService.UniqueIds(store)
    requires token != "" && !JwtBearer.Falsy(verify(token))
    requires JwtBearer.Subject(verify(token).value) == Some(userId) && userId != ""
    requires TaskService.GetTaskById(store, taskId, userId).Some?
    ensures Handle(store, Some("Bearer " + token), verify, GetRoute(taskId), newId, clock)
            == (store, Ok(TasksApi.Response(200, TasksApi.OneTask(TaskService.GetTaskById(store, taskId, userId).value))))
  {
    JwtBearer.BearerTokenAccepted(token, verify);
  }
}

=== FILE: seqs.dfy ===
/** Order-preserving selection over sequences: `Array.prototype.filter`, a SQL `WHERE`. */
module Seqs {

  function Filter<T(!new)>(p: T -> bool, s: seq<T>): (r: seq<T>)
    ensures |r| <= |s|
    ensures forall e :: e in r <==> e in s && p(e)
  {
    if |s| == 0 then
      []
    else
      assert s == [s[0]] + s[1..];
      if p(s[0]) then [s[0]] + Filter(p, s[1..]) else Filter(p, s[1..])
  }

  /** Filtering with a predicate every element meets keeps the sequence. */
  lemma {:induction false} FilterKeepsAll<T(!new)>(p: T -> bool, s: seq<T>)
    requires forall e :: e in s ==> p(e)
    ensures Filter(p, s) == s
  {
    if |s| > 0 {
      assert s == [s[0]] + s[1..];
      FilterKeepsAll(p, s[1..]);
    }
  }

  /** Filtering distributes over concatenation. */
  lemma {:induction false} FilterAppend<T(!new)>(p: T -> bool, s: seq<T>, t: seq<T>)
    ensures Filter(p, s + t) == Filter(p, s) + Filter(p, t)
  {
    if |s| == 0 {
      assert s + t == t;
    } else {
      assert (s + t)[1..] == s[1..] + t;
      assert (s + t)[0] == s[0];
      FilterAppend(p, s[1..], t);
    }
  }

  /** An element the predicate rejects contributes nothing. */
  lemma FilterSkipsRejected<T(!new)>(p: T -> bool, x: T, s: seq<T>)
    requires !p(x)
    ensures Filter(p, [x] + s) == Filter(p, s)
  {
    assert ([x] + s)[1..] == s;
  }

  /** Filtering a sequence that is kept on both sides of one rejected element removes
      exactly that element. */
  lemma FilterDropsOne<T(!new)>(p: T -> bool, s: seq<T>, k: nat)
    requires k < |s| && !p(s[k])
    requires Filter(p, s[..k]) == s[..k]
    requires Filter(p, s[k + 1..]) == s[k + 1..]
    ensures Filter(p, s) == s[..k] + s[k + 1..]
  {
    assert s == s[..k] + s[k..];
    FilterAppend(p, s[..k], s[k..]);
    assert s[k..] == [s[k]] + s[k + 1..];
    FilterSkipsRejected(p, s[k], s[k + 1..]);
  }
}

=== FILE: strings.dfy ===
/** Decimal rendering and parsing of natural numbers, and substring search.
    These stand in for JavaScript template interpolation of numbers, Python's
    `int()` on a query value, and `String.prototype.includes`. */
module Strings {
  import opened Wrappers

  predicate IsDigit(c: char)
  {
    '0' <= c <= '9'
  }

  function DigitChar(d: nat): (c: char)
    requires d < 10
    ensures IsDigit(c)
  {
    ['0', '1', '2', '3', '4', '5', '6', '7', '8', '9'][d]
  }

  function DigitValue(c: char): (d: nat)
    requires IsDigit(c)
    ensures d < 10
  {
    (c as int - '0' as int) as nat
  }

  /** Shortest decimal rendering of `n` (what `${n}` yields for a non-negative integer). */
  function NatToString(n: nat): (s: string)
    ensures |s| >= 1
    ensures forall i :: 0 <= i < |s| ==> IsDigit(s[i])
    decreases n
  {
    if n < 10 then [DigitChar(n)] else NatToString(n / 10) + [DigitChar(n % 10)]
  }

  /** Value of a non-empty all-digit string, most significant digit first. */
  function DigitsValue(s: string): nat
    requires forall i :: 0 <= i < |s| ==> IsDigit(s[i])
  {
    if |s| == 0 then 0 else DigitsValue(s[..|s| - 1]) * 10 + DigitValue(s[|s| - 1])
  }

  /** Parsing of a query value as a natural number: only non-empty digit strings are accepted. */
  function ParseNat(s: string): (r: Option<nat>)
    ensures r.Some? <==> |s| >= 1 && forall i :: 0 <= i < |s| ==> IsDigit(s[i])
  {
    if |s| >= 1 && forall i :: 0 <= i < |s| ==> IsDigit(s[i]) then Some(DigitsValue(s)) else None
  }

  lemma DigitRoundTrip(d: nat)
    requires d < 10
    ensures DigitValue(DigitChar(d)) == d
  {
  }

  /** Rendering a number and parsing it back gives the number. */
  lemma {:induction false} NatToStringRoundTrip(n: nat)
    ensures ParseNat(NatToString(n)) == Some(n)
    decreases n
  {
    var s := NatToString(n);
    if n < 10 {
      DigitRoundTrip(n);
      assert s == [DigitChar(n)];
      assert s[..|s| - 1] == [];
      assert DigitsValue(s) == DigitValue(DigitChar(n));
    } else {
      NatToStringRoundTrip(n / 10);
      var p := NatToString(n / 10);
      assert s == p + [DigitChar(n % 10)];
      assert s[..|s| - 1] == p;
      DigitRoundTrip(n % 10);
    }
  }

  /** Decimal rendering of an integer, with a leading minus sign when it is negative. */
  function IntToString(n: int): (s: string)
    ensures |s| >= 1 && IsDigit(s[|s| - 1])
    ensures s[0] == '-' || IsDigit(s[0])
    ensures forall i :: 0 <= i < |s| ==> s[i] != '.'
  {
    if n < 0 then "-" + NatToString(-n) else NatToString(n)
  }

  /** Parsing of an integer numeral: an optional `+` or `-`, then a non-empty run of digits. */
  function ParseInt(s: string): (r: Option<int>)
    ensures r.Some? <==> ParseNat(s).Some? || (|s| >= 1 && (s[0] == '+' || s[0] == '-') && ParseNat(s[1..]).Some?)
    ensures ParseNat(s).Some? ==> r == Some(ParseNat(s).value)
    ensures |s| >= 1 && s[0] == '-' && r.Some? ==> r.value == 0 - ParseNat(s[1..]).value
    ensures |s| >= 1 && s[0] == '+' && r.Some? ==> r.value == ParseNat(s[1..]).value
  {
    if |s| >= 1 && (s[0] == '+' || s[0] == '-') then
      match ParseNat(s[1..])
      case Some(n) => Some(if s[0] == '-' then 0 - n else n)
      case None => None
    else
      match ParseNat(s)
      case Some(n) => Some(n)
      case None => None
  }

  /** Rendering an integer and parsing it back gives the integer; an explicit plus sign
      on a non-negative one changes nothing. */
  lemma IntToStringRoundTrip(n: int)
    ensures ParseInt(IntToString(n)) == Some(n)
    ensures n >= 0 ==> ParseInt("+" + IntToString(n)) == Some(n)
  {
    if n < 0 {
      NatToStringRoundTrip(-n);
      assert ("-" + NatToString(-n))[1..] == NatToString(-n);
    } else {
      NatToStringRoundTrip(n);
      assert ("+" + NatToString(n))[1..] == NatToString(n);
    }
  }

  /** The first position of `c` in `s`, if any. */
  function IndexOf(s: string, c: char): (r: Option<nat>)
    ensures r.None? <==> forall k :: 0 <= k < |s| ==> s[k] != c
    ensures r.Some? ==> r.value < |s| && s[r.value] == c && forall k :: 0 <= k < r.value ==> s[k] != c
  {
    if |s| == 0 then None
    else if s[0] == c then Some(0)
    else
      match IndexOf(s[1..], c)
      case Some(i) => Some(i + 1)
      case None => None
  }

  /** How many characters of the class `ws` lead `s`. */
  function LeadCount(ws: char -> bool, s: string): (n: nat)
    ensures n <= |s|
    ensures forall k :: 0 <= k < n ==> ws(s[k])
    ensures n == |s| || !ws(s[n])
  {
    if |s| > 0 && ws(s[0]) then 1 + LeadCount(ws, s[1..]) else 0
  }

  /** How many characters of the class `ws` end `s`. */
  function TrailCount(ws: char -> bool, s: string): (n: nat)
    ensures n <= |s|
    ensures forall k :: |s| - n <= k < |s| ==> ws(s[k])
    ensures n == |s| || !ws(s[|s| - n - 1])
  {
    if |s| > 0 && ws(s[|s| - 1]) then 1 + TrailCount(ws, s[..|s| - 1]) else 0
  }

  /** `s` with the characters of the class `ws` removed from both ends: the slice of `s`
      that starts after its leading run of such characters and is followed only by such
      characters, and that neither starts nor ends with one. */
  function Trim(ws: char -> bool, s: string): (r: string)
    ensures LeadCount(ws, s) + |r| <= |s|
    ensures r == s[LeadCount(ws, s)..LeadCount(ws, s) + |r|]
    ensures forall k :: LeadCount(ws, s) + |r| <= k < |s| ==> ws(s[k])
    ensures r == [] || (!ws(r[0]) && !ws(r[|r| - 1]))
  {
    var u := s[LeadCount(ws, s)..];
    u[..|u| - TrailCount(ws, u)]
  }

  /** A string trims to nothing exactly when all of it is of the class. */
  lemma TrimEmptyIffBlank(ws: char -> bool, s: string)
    ensures Trim(ws, s) == [] <==> forall k :: 0 <= k < |s| ==> ws(s[k])
  {
  }

  /** Padding a string that neither starts nor ends with a character of the class by such
      characters on either side, and trimming, gives the string back. */
  lemma TrimPadded(ws: char -> bool, a: string, x: string, b: string)
    requires forall k :: 0 <= k < |a| ==> ws(a[k])
    requires forall k :: 0 <= k < |b| ==> ws(b[k])
    requires x == [] || (!ws(x[0]) && !ws(x[|x| - 1]))
    ensures Trim(ws, a + x + b) == x
  {
    var s := a + x + b;
    var r := Trim(ws, s);
    var n := LeadCount(ws, s);
    if x == [] {
      assert s == a + b;
      assert forall k :: 0 <= k < |s| ==> ws(s[k]) by {
        forall k | 0 <= k < |s| ensures ws(s[k]) {
          if k < |a| { assert s[k] == a[k]; } else { assert s[k] == b[k - |a|]; }
        }
      }
      TrimEmptyIffBlank(ws, s);
    } else {
      assert s[|a|] == x[0];
      assert s[|a| + |x| - 1] == x[|x| - 1];
      assert forall k :: 0 <= k < |a| ==> s[k] == a[k];
      assert n == |a|;
      assert r != [];
      assert forall k :: |a| + |x| <= k < |s| ==> ws(s[k]) by {
        forall k | |a| + |x| <= k < |s| ensures ws(s[k]) {
          assert s[k] == b[k - |a| - |x|];
        }
      }
      assert r[|r| - 1] == s[|a| + |r| - 1];
      assert |r| == |x|;
      assert r == s[|a|..|a| + |x|] == x;
    }
  }

  /** Trimming twice trims nothing more. */
  lemma TrimIdempotent(ws: char -> bool, s: string)
    ensures Trim(ws, Trim(ws, s)) == Trim(ws, s)
  {
    TrimPadded(ws, [], Trim(ws, s), []);
    assert [] + Trim(ws, s) + [] == Trim(ws, s);
  }

  /** `part` occurs in `s` starting at index `i`. */
  predicate OccursAt(s: string, part: string, i: int)
  {
    0 <= i && i + |part| <= |s| && s[i..i + |part|] == part
  }

  /** `s.includes(part)` */
  predicate Contains(s: string, part: string)
  {
    exists i | 0 <= i <= |s| :: OccursAt(s, part, i)
  }

  /** A string that does not hold the character `c` holds no substring with `c` in it. */
  lemma NotContainsWithoutChar(s: string, part: string, c: char)
    requires forall i :: 0 <= i < |s| ==> s[i] != c
    requires exists k :: 0 <= k < |part| && part[k] == c
    ensures !Contains(s, part)
  {
    var k :| 0 <= k < |part| && part[k] == c;
    forall i | 0 <= i && i + |part| <= |s|
      ensures !OccursAt(s, part, i)
    {
      assert s[i..i + |part|][k] == s[i + k];
    }
  }
}

=== FILE: task_form.dfy ===
/** The task form's submit step: the title and description are trimmed, checked in a
    fixed order, and the due date is moved to the last millisecond of its day in UTC. */
module TaskForm {
  import opened Wrappers
  import opened TaskModel
  import Strings

  /** The characters `String.prototype.trim` removes: ECMAScript white space and line
      terminators. */
  predicate IsSpace(c: char)
  {
    var n := c as int;
    (0x09 <= n <= 0x0D) || n == 0x20 || n == 0xA0 || n == 0x1680 || (0x2000 <= n <= 0x200A)
    || n == 0x2028 || n == 0x2029 || n == 0x202F || n == 0x205F || n == 0x3000 || n == 0xFEFF
  }

  /** `s.trim()` */
  function Trim(s: string): string
  {
    Strings.Trim(IsSpace, s)
  }

  /** `s.length`: the number of UTF-16 code units, two for each character beyond the Basic
      Multilingual Plane. */
  function Utf16Length(s: string): (n: nat)
    ensures |s| <= n <= 2 * |s|
    ensures (forall k :: 0 <= k < |s| ==> s[k] as int <= 0xFFFF) ==> n == |s|
    ensures (forall k :: 0 <= k < |s| ==> s[k] as int > 0xFFFF) ==> n == 2 * |s|
  {
    if |s| == 0 then 0
    else Utf16Length(s[..|s| - 1]) + (if s[|s| - 1] as int > 0xFFFF then 2 else 1)
  }

  const MsPerDay: int := 86400000

  /** The calendar day of the picked due date as the browser parsed it: full year,
      zero-based month and day of the month. */
  datatype Day = Day(year: int, month: int, date: int)

  /** Days from 1970-01-01 to the given day of the proleptic Gregorian calendar
      (month 1..12). */
  function DaysFromCivil(y: int, m: int, d: int): int
    requires 1 <= m <= 12
  {
    var y' := if m <= 2 then y - 1 else y;
    var era := y' / 400;
    var yoe := y' - era * 400;
    var mp := if m > 2 then m - 3 else m + 9;
    var doy := (153 * mp + 2) / 5 + d - 1;
    var doe := yoe * 365 + yoe / 4 - yoe / 100 + doy;
    era * 146097 + doe - 719468
  }

  /** ECMAScript's MakeDay: a month outside 0..11 carries into the year, and a day
      number past the month's end carries into the following days. */
  function MakeDay(year: int, month: int, date: int): int
  {
    DaysFromCivil(year + month / 12, month % 12 + 1, date)
  }

  /** The epoch is day zero. */
  lemma EpochIsDayZero()
    ensures MakeDay(1970, 0, 1) == 0
  {
  }

  /** Twelve months more is one year more, and a month before January is in the year
      before: a month outside 0..11 carries into the year. */
  lemma MakeDayCarriesMonths(year: int, month: int, date: int)
    ensures MakeDay(year, month + 12, date) == MakeDay(year + 1, month, date)
    ensures MakeDay(year, month - 12, date) == MakeDay(year - 1, month, date)
  {
    assert (month + 12) / 12 == month / 12 + 1 && (month + 12) % 12 == month % 12;
    assert (month - 12) / 12 == month / 12 - 1 && (month - 12) % 12 == month % 12;
  }

  /** `Date.UTC(y, m, d, h, mi, s, ms)` for in-range time fields, as the standard defines
      it: a year from 0 to 99 denotes 1900 to 1999. */
  function DateUtc(year: int, month: int, date: int, h: int, mi: int, s: int, ms: int): Stamp
  {
    var y := if 0 <= year <= 99 then 1900 + year else year;
    MakeDay(y, month, date) * MsPerDay + h * 3600000 + mi * 60000 + s * 1000 + ms
  }

  /** The due-date normalisation as written: `Date.UTC` of the parsed day at 23:59:59.999. */
  function EndOfDayAsWritten(d: Day): Stamp
  {
    DateUtc(d.year, d.month, d.date, 23, 59, 59, 999)
  }

  /** The due-date normalisation as intended: the last millisecond of the parsed day, UTC. */
  function EndOfDay(d: Day): (t: Stamp)
    ensures t / MsPerDay == MakeDay(d.year, d.month, d.date)
    ensures t % MsPerDay == MsPerDay - 1
    ensures t + 1 == MakeDay(d.year, d.month, d.date + 1) * MsPerDay
  {
    MakeDay(d.year, d.month, d.date) * MsPerDay + (MsPerDay - 1)
  }

  /** For every year outside 0..99 the code computes the intended instant, and every
      instant of that UTC day is at or before it. */
  lemma EndOfDayIsLatestOfDay(d: Day, h: int, mi: int, s: int, ms: int)
    requires !(0 <= d.year <= 99)
    requires 0 <= h < 24 && 0 <= mi < 60 && 0 <= s < 60 && 0 <= ms < 1000
    ensures EndOfDayAsWritten(d) == EndOfDay(d)
    ensures DateUtc(d.year, d.month, d.date, h, mi, s, ms) <= EndOfDay(d)
  {
  }

  /** For a year from 0 to 99 the code lands 1900 years later than the picked day. */
  lemma TwoDigitYearShifted(d: Day)
    requires 0 <= d.year <= 99
    ensures EndOfDayAsWritten(d) == EndOfDay(Day(d.year + 1900, d.month, d.date))
  {
  }

  /** A due date of 0050-06-14 is sent as 1950-06-14T23:59:59.999Z, not as the end of
      the picked day. */
  lemma YearFiftyMisdated()
    ensures EndOfDayAsWritten(Day(50, 5, 14)) == -7141 * MsPerDay + (MsPerDay - 1)
    ensures EndOfDay(Day(50, 5, 14)) == -701101 * MsPerDay + (MsPerDay - 1)
  {
    assert DaysFromCivil(1950, 6, 14) == -7141;
    assert DaysFromCivil(50, 6, 14) == -701101;
    assert MakeDay(1950, 5, 14) == -7141;
    assert MakeDay(50, 5, 14) == -701101;
  }

  /** The due date the form sends for an optional picked day, as the code computes it. */
  function DueDateAsWritten(dueDay: Option<Day>): (r: Option<Stamp>)
    ensures r.None? <==> dueDay.None?
    ensures dueDay.Some? && !(0 <= dueDay.value.year <= 99) ==> r == Some(EndOfDay(dueDay.value))
    ensures dueDay.Some? && 0 <= dueDay.value.year <= 99 ==>
              var Day(y, m, d) := dueDay.value;
              r == Some(EndOfDay(Day(y + 1900, m, d)))
  {
    if dueDay.Some? then Some(EndOfDayAsWritten(dueDay.value)) else None
  }

  datatype FormError = TitleRequired | TitleLength | DescriptionLength

  /** The alert shown for each failed check. */
  function AlertText(e: FormError): string
  {
    match e
    case TitleRequired => "Title is required"
    case TitleLength => "Title must be between 1 and 100 characters"
    case DescriptionLength => "Description must be less than 1000 characters"
  }

  /** What the form hands to its `onSubmit`. */
  datatype Draft = Draft(title: string, description: Option<string>, dueDate: Option<Stamp>)

  /** `handleSubmit`: the first failed check, or the normalised draft. `dueDay` is the
      parsed day of the date field, absent when the field is empty. Lengths are counted
      in UTF-16 code units, and the due date is computed as written. */
  function Submit(title: string, description: string, dueDay: Option<Day>): (r: Result<Draft, FormError>)
    ensures Trim(title) == [] ==> r == Err(TitleRequired)
    ensures Trim(title) != [] && Utf16Length(Trim(title)) > TitleMaxLength ==> r == Err(TitleLength)
    ensures Trim(title) != [] && Utf16Length(Trim(title)) <= TitleMaxLength && Utf16Length(description) > DescriptionMaxLength ==>
              r == Err(DescriptionLength)
    ensures r.Ok? <==>
              && Trim(title) != [] && Utf16Length(Trim(title)) <= TitleMaxLength
              && Utf16Length(description) <= DescriptionMaxLength
    ensures r.Ok? ==> r.value.title == Trim(title) && ValidTitle(r.value.title)
    ensures r.Ok? ==> (r.value.description.None? <==> Trim(description) == [])
    ensures r.Ok? && r.value.description.Some? ==> r.value.description.value == Trim(description)
    ensures r.Ok? ==> (r.value.dueDate.None? <==> dueDay.None?)
    ensures r.Ok? && dueDay.Some? && !(0 <= dueDay.value.year <= 99) ==> r.value.dueDate == Some(EndOfDay(dueDay.value))
    ensures r.Ok? && dueDay.Some? && 0 <= dueDay.value.year <= 99 ==>
              var Day(y, m, d) := dueDay.value;
              r.value.dueDate == Some(EndOfDay(Day(y + 1900, m, d)))
  {
    var t := Trim(title);
    var d := Trim(description);
    var draft := Draft(t, if d == [] then None else Some(d), DueDateAsWritten(dueDay));
    if t == [] then Err(TitleRequired)
    else if Utf16Length(t) < 1 || Utf16Length(t) > 100 then Err(TitleLength)
    else if description != [] && Utf16Length(description) > 1000 then Err(DescriptionLength)
    else Ok(draft)
  }

  /** The submit step with the due date normalised as intended: the same checks and the
      same draft, with the due date at the last millisecond of the picked day for every
      year. */
  function SubmitIntended(title: string, description: string, dueDay: Option<Day>): (r: Result<Draft, FormError>)
    ensures r.Ok? <==> Submit(title, description, dueDay).Ok?
    ensures r.Ok? ==> r.value == Submit(title, description, dueDay).value.(dueDate := r.value.dueDate)
    ensures r.Err? ==> r == Submit(title, description, dueDay)
    ensures r.Ok? ==> r.value.title == Trim(title) && ValidTitle(r.value.title)
    ensures r.Ok? ==> (r.value.dueDate.None? <==> dueDay.None?)
    ensures r.Ok? && dueDay.Some? ==>
              && r.value.dueDate.value % MsPerDay == MsPerDay - 1
              && r.value.dueDate.value / MsPerDay == MakeDay(dueDay.value.year, dueDay.value.month, dueDay.value.date)
    ensures r.Ok? && (dueDay.None? || !(0 <= dueDay.value.year <= 99)) ==> r == Submit(title, description, dueDay)
  {
    match Submit(title, description, dueDay)
    case Err(e) => Err(e)
    case Ok(draft) =>
      Ok(draft.(dueDate := if dueDay.Some? then Some(EndOfDay(dueDay.value)) else None))
  }
}

=== FILE: task_model.dfy ===
/** The task record and its request shapes: `TaskStatus`, `TaskBase`/`Task`,
    `TaskCreate`, `TaskUpdate` and `TaskUpdateStatus` of the backend models, which
    the frontend's `Task` type mirrors field for field. */
module TaskModel {
  import opened Wrappers

  /** A timestamp as a count of milliseconds. An ISO string with a zone, and a `datetime`
      from `utcnow()`, denote milliseconds since the Unix epoch in UTC; the naive local
      wall-clock reading an update stores is kept as the number the clock shows, read
      as if it were UTC. */
  type Stamp = int

  /** The clock readings one request may take: `datetime.utcnow()` once for each of a new
      row's two timestamp defaults, and `datetime.now()`, the server's local wall-clock
      time, when a row is updated. */
  datatype Clock = Clock(createdUtc: Stamp, updatedUtc: Stamp, local: Stamp)

  /** A task is in exactly one of two states. */
  datatype Status = Pending | Completed

  /** The wire value of a status (`TaskStatus` is a `str` enum). */
  function StatusName(s: Status): string
  {
    match s
    case Pending => "pending"
    case Completed => "completed"
  }

  /** Enum coercion of a wire value: only the two member values are accepted. */
  function ParseStatus(v: string): (r: Option<Status>)
    ensures r.Some? <==> (v == "pending" || v == "completed")
    ensures r.Some? ==> StatusName(r.value) == v
  {
    if v == "pending" then Some(Pending)
    else if v == "completed" then Some(Completed)
    else None
  }

  /** Parsing the wire value of a status gives that status back. */
  lemma StatusNameRoundTrip(s: Status)
    ensures ParseStatus(StatusName(s)) == Some(s)
  {
  }

  /** The status a task card asks for when its checkbox is clicked: the other one. */
  function Flip(s: Status): (r: Status)
    ensures r != s
  {
    if s == Pending then Completed else Pending
  }

  lemma FlipInvolutive(s: Status)
    ensures Flip(Flip(s)) == s
  {
  }

  const TitleMinLength: nat := 1
  const TitleMaxLength: nat := 100
  const DescriptionMaxLength: nat := 1000

  predicate ValidTitle(t: string)
  {
    TitleMinLength <= |t| <= TitleMaxLength
  }

  predicate ValidDescription(d: Option<string>)
  {
    d.None? || |d.value| <= DescriptionMaxLength
  }

  /** A stored task row (`Task`, the table model) and its public view (`TaskPublic`). */
  datatype Task = Task(
    id: string,
    title: string,
    description: Option<string>,
    status: Status,
    dueDate: Option<Stamp>,
    userId: string,
    createdAt: Stamp,
    updatedAt: Stamp)

  /** The field constraints of `TaskBase`. */
  predicate ValidTask(t: Task)
  {
    ValidTitle(t.title) && ValidDescription(t.description)
  }

  /** The body of a create request. `status` is `None` when the client omits it. */
  datatype TaskCreate = TaskCreate(
    title: string,
    description: Option<string>,
    status: Option<Status>,
    dueDate: Option<Stamp>)

  /** The status a create body asks for: the one sent, or the field's default, pending. */
  function CreateStatus(c: TaskCreate): (s: Status)
    ensures c.status.None? ==> s == Pending
    ensures c.status.Some? ==> s == c.status.value
  {
    c.status.GetOr(Pending)
  }

  /** The field constraints of `TaskCreate`, checked when the request body is parsed. */
  predicate ValidCreate(c: TaskCreate)
  {
    ValidTitle(c.title) && ValidDescription(c.description)
  }

  /** The body of an update request. Each field is `None` when the client did not send it
      (pydantic's unset); every sent field may itself be null, since all four are optional. */
  datatype TaskUpdate = TaskUpdate(
    title: Option<Option<string>>,
    description: Option<Option<string>>,
    status: Option<Option<Status>>,
    dueDate: Option<Option<Stamp>>)

  /** The field constraints of `TaskUpdate`: a sent, non-null title or description obeys the
      same bounds; null passes. */
  predicate ValidUpdate(u: TaskUpdate)
  {
    (u.title.None? || u.title.value.None? || ValidTitle(u.title.value.value))
    && (u.description.None? || ValidDescription(u.description.value))
  }

  /** The update sends null for a column the table declares NOT NULL: `title` or `status`. */
  predicate NullsRequiredField(u: TaskUpdate)
  {
    u.title == Some(None) || u.status == Some(None)
  }

  /** The body of a status-only update: it always carries a status. */
  datatype TaskUpdateStatus = TaskUpdateStatus(status: Status)
}

=== FILE: task_order.dfy ===
/** The `ORDER BY` clause of the task listing: the sort key chosen by name, the
    direction, and a stable insertion sort that realises it over the table's rows. */
module TaskOrder {
  import opened Wrappers
  import opened TaskModel

  datatype SortKey = ByTitle | ByDueDate | ByCreatedAt

  /** `title` and `due_date` select their column; every other name falls back to `created_at`. */
  function KeyOf(sortBy: string): (k: SortKey)
    ensures k == ByTitle <==> sortBy == "title"
    ensures k == ByDueDate <==> sortBy == "due_date"
  {
    if sortBy == "title" then ByTitle
    else if sortBy == "due_date" then ByDueDate
    else ByCreatedAt
  }

  /** Ascending only for the exact value "asc"; anything else sorts descending. */
  function Ascending(order: string): (asc: bool)
    ensures asc <==> order == "asc"
  {
    order == "asc"
  }

  /** Code-point lexicographic order on titles. */
  predicate LexLe(a: string, b: string)
  {
    |a| == 0 || (|b| > 0 && (a[0] < b[0] || (a[0] == b[0] && LexLe(a[1..], b[1..]))))
  }

  lemma LexLeTotal(a: string, b: string)
    ensures LexLe(a, b) || LexLe(b, a)
  {
  }

  lemma LexLeTransitive(a: string, b: string, c: string)
    requires LexLe(a, b) && LexLe(b, c)
    ensures LexLe(a, c)
  {
  }

  /** Order of nullable due dates: a missing date sorts after every date
      (PostgreSQL's default: NULLS LAST ascending, NULLS FIRST descending). */
  predicate DueLe(a: Option<Stamp>, b: Option<Stamp>)
  {
    b.None? || (a.Some? && a.value <= b.value)
  }

  /** `a` may precede `b` in ascending order of key `k`. */
  predicate KeyLe(k: SortKey, a: Task, b: Task)
  {
    match k
    case ByTitle => LexLe(a.title, b.title)
    case ByDueDate => DueLe(a.dueDate, b.dueDate)
    case ByCreatedAt => a.createdAt <= b.createdAt
  }

  /** `a` may precede `b` in the requested direction. */
  predicate Before(k: SortKey, asc: bool, a: Task, b: Task)
  {
    if asc then KeyLe(k, a, b) else KeyLe(k, b, a)
  }

  lemma BeforeTotal(k: SortKey, asc: bool, a: Task, b: Task)
    ensures Before(k, asc, a, b) || Before(k, asc, b, a)
  {
    if k == ByTitle {
      LexLeTotal(a.title, b.title);
    }
  }

  lemma BeforeTransitive(k: SortKey, asc: bool, a: Task, b: Task, c: Task)
    requires Before(k, asc, a, b) && Before(k, asc, b, c)
    ensures Before(k, asc, a, c)
  {
    if k == ByTitle {
      if asc {
        LexLeTransitive(a.title, b.title, c.title);
      } else {
        LexLeTransitive(c.title, b.title, a.title);
      }
    }
  }

  predicate Sorted(k: SortKey, asc: bool, s: seq<Task>)
  {
    forall i, j :: 0 <= i < j < |s| ==> Before(k, asc, s[i], s[j])
  }

  lemma PrependSorted(k: SortKey, asc: bool, x: Task, s: seq<Task>)
    requires Sorted(k, asc, s)
    requires forall e :: e in s ==> Before(k, asc, x, e)
    ensures Sorted(k, asc, [x] + s)
  {
    var r := [x] + s;
    forall i, j | 0 <= i < j < |r|
      ensures Before(k, asc, r[i], r[j])
    {
      if i > 0 {
        assert r[i] == s[i - 1] && r[j] == s[j - 1];
      } else {
        assert r[j] == s[j - 1] && r[j] in s;
      }
    }
  }

  lemma HeadBeforeAll(k: SortKey, asc: bool, x: Task, s: seq<Task>)
    requires Sorted(k, asc, s) && |s| > 0
    requires Before(k, asc, x, s[0])
    ensures forall e :: e in s ==> Before(k, asc, x, e)
  {
    forall e | e in s
      ensures Before(k, asc, x, e)
    {
      var j :| 0 <= j < |s| && s[j] == e;
      if j > 0 {
        BeforeTransitive(k, asc, x, s[0], e);
      }
    }
  }

  lemma HeadBeforeInserted(k: SortKey, asc: bool, h: Task, x: Task, s: seq<Task>, r: seq<Task>)
    requires Before(k, asc, h, x)
    requires forall e :: e in s ==> Before(k, asc, h, e)
    requires multiset(r) == multiset(s) + multiset{x}
    ensures forall e :: e in r ==> Before(k, asc, h, e)
  {
    forall e | e in r
      ensures Before(k, asc, h, e)
    {
      assert e in multiset(r);
      if e != x {
        assert e in multiset(s);
      }
    }
  }

  /** Insert `x` into a sorted sequence before the first element it may precede. */
  function Insert(k: SortKey, asc: bool, x: Task, s: seq<Task>): (r: seq<Task>)
    requires Sorted(k, asc, s)
    ensures Sorted(k, asc, r)
    ensures multiset(r) == multiset(s) + multiset{x}
  {
    if |s| == 0 then
      [x]
    else if Before(k, asc, x, s[0]) then
      HeadBeforeAll(k, asc, x, s);
      PrependSorted(k, asc, x, s);
      [x] + s
    else
      BeforeTotal(k, asc, x, s[0]);
      assert s == [s[0]] + s[1..];
      var rest := Insert(k, asc, x, s[1..]);
      assert forall e :: e in s[1..] ==> Before(k, asc, s[0], e) by {
        forall e | e in s[1..]
          ensures Before(k, asc, s[0], e)
        {
          var j :| 0 <= j < |s[1..]| && s[1..][j] == e;
          assert s[j + 1] == e;
        }
      }
      HeadBeforeInserted(k, asc, s[0], x, s[1..], rest);
      PrependSorted(k, asc, s[0], rest);
      [s[0]] + rest
  }

  /** The rows in the requested order: a permutation of the input, sorted. Rows with
      equal keys keep their relative order. */
  function Sort(k: SortKey, asc: bool, s: seq<Task>): (r: seq<Task>)
    ensures Sorted(k, asc, r)
    ensures multiset(r) == multiset(s)
    ensures |r| == |s|
  {
    if |s| == 0 then
      []
    else
      assert s == [s[0]] + s[1..];
      Insert(k, asc, s[0], Sort(k, asc, s[1..]))
  }
}

=== FILE: task_service.dfy ===
/** The task service over an in-memory table. The table is the sequence of stored rows;
    its order is the physical row order, which decides only the relative order of rows
    whose sort keys are equal. */
module TaskService {
  import opened Wrappers
  import opened TaskModel
  import opened TaskOrder
  import Seqs

  type Store = seq<Task>

  /** `id` is the table's primary key. */
  predicate UniqueIds(store: Store)
  {
    forall i, j :: 0 <= i < j < |store| ==> store[i].id != store[j].id
  }

  /** The state every operation starts from and returns to: unique keys, and every row
      obeying the `TaskBase` field constraints. */
  predicate Invariant(store: Store)
  {
    UniqueIds(store) && forall t :: t in store ==> ValidTask(t)
  }

  /** The rows a listing selects: the caller's own, of the filter status when one is given. */
  predicate Matches(userId: string, statusFilter: Option<Status>, t: Task)
  {
    t.userId == userId && (statusFilter.None? || t.status == statusFilter.value)
  }

  function Selected(store: Store, userId: string, statusFilter: Option<Status>): seq<Task>
  {
    Seqs.Filter((t: Task) => Matches(userId, statusFilter, t), store)
  }

  /** `OFFSET skip LIMIT limit` */
  function OffsetLimit(s: seq<Task>, skip: nat, limit: nat): (r: seq<Task>)
    ensures |r| <= limit
    ensures |r| == if skip >= |s| then 0 else if limit <= |s| - skip then limit else |s| - skip
    ensures forall i :: 0 <= i < |r| ==> r[i] == s[skip + i]
  {
    if skip >= |s| then [] else if limit <= |s| - skip then s[skip..skip + limit] else s[skip..]
  }

  /** `get_tasks`: one page of the caller's selected tasks in the requested order. */
  function GetTasks(store: Store, userId: string, statusFilter: Option<Status>,
                    skip: nat, limit: nat, sortBy: string, order: string): (r: seq<Task>)
    ensures |r| <= limit
    ensures forall t :: t in r ==> t in store && Matches(userId, statusFilter, t)
    ensures Sorted(KeyOf(sortBy), Ascending(order), r)
    ensures r == OffsetLimit(Sort(KeyOf(sortBy), Ascending(order), Selected(store, userId, statusFilter)), skip, limit)
  {
    var sel := Selected(store, userId, statusFilter);
    var sorted := Sort(KeyOf(sortBy), Ascending(order), sel);
    var r := OffsetLimit(sorted, skip, limit);
    assert forall t :: t in r ==> t in sorted by {
      forall t | t in r
        ensures t in sorted
      {
        var i :| 0 <= i < |r| && r[i] == t;
        assert sorted[skip + i] == t;
      }
    }
    forall t | t in sorted
      ensures t in sel
    {
      assert t in multiset(sorted);
    }
    r
  }

  /** `get_user_tasks_count`: how many rows the listing selects, counted one row at a time. */
  function CountTasks(store: Store, userId: string, statusFilter: Option<Status>): (n: nat)
    ensures n <= |store|
    ensures n == 0 <==> forall t :: t in store ==> !Matches(userId, statusFilter, t)
  {
    if |store| == 0 then 0
    else
      assert store == [store[0]] + store[1..];
      (if Matches(userId, statusFilter, store[0]) then 1 else 0) + CountTasks(store[1..], userId, statusFilter)
  }

  /** Index of the row with key `taskId` owned by `userId`, if there is one. */
  function FindOwned(store: Store, taskId: string, userId: string): (r: Option<nat>)
    ensures r.Some? ==> r.value < |store| && store[r.value].id == taskId && store[r.value].userId == userId
    ensures r.None? <==> forall t :: t in store ==> !(t.id == taskId && t.userId == userId)
  {
    if |store| == 0 then None
    else if store[0].id == taskId && store[0].userId == userId then Some(0)
    else
      assert store == [store[0]] + store[1..];
      match FindOwned(store[1..], taskId, userId)
      case Some(i) => Some(i + 1)
      case None => None
  }

  /** `get_task_by_id`: the caller's task with that key, or nothing. */
  function GetTaskById(store: Store, taskId: string, userId: string): (r: Option<Task>)
    requires UniqueIds(store)
    ensures r.Some? <==> exists t :: t in store && t.id == taskId && t.userId == userId
    ensures r.Some? ==> r.value in store && r.value.id == taskId && r.value.userId == userId
  {
    match FindOwned(store, taskId, userId)
    case Some(i) => Some(store[i])
    case None => None
  }

  /** The row `create_task` inserts: the request's fields with the status defaulted, the
      caller as owner, the new key, and each timestamp from its own clock reading. */
  function NewTask(c: TaskCreate, userId: string, newId: string, created: Stamp, updated: Stamp): Task
  {
    Task(newId, c.title, c.description, CreateStatus(c), c.dueDate, userId, created, updated)
  }

  /** `create_task`. The key comes from the id generator; a key already in the table fails
      the commit with an integrity error, which rolls back. */
  function CreateTask(store: Store, c: TaskCreate, userId: string, newId: string, created: Stamp, updated: Stamp): (r: (Store, Result<Task, string>))
    ensures r.1.Err? <==> exists t :: t in store && t.id == newId
    ensures r.1.Err? ==> r.0 == store
    ensures r.1.Ok? ==> r.0 == store + [r.1.value]
    ensures r.1.Ok? ==> var t := r.1.value;
      t.id == newId && t.userId == userId && t.title == c.title && t.description == c.description
      && t.status == (if c.status.Some? then c.status.value else Pending) && t.dueDate == c.dueDate
      && t.createdAt == created && t.updatedAt == updated
    ensures UniqueIds(store) ==> UniqueIds(r.0)
    ensures Invariant(store) && ValidCreate(c) ==> Invariant(r.0)
  {
    if exists t :: t in store && t.id == newId then
      (store, Err("Database constraint violation"))
    else
      var t := NewTask(c, userId, newId, created, updated);
      var s' := store + [t];
      assert forall u :: u in s' ==> u in store || u == t;
      (s', Ok(t))
  }

  /** A patch applied to a row: every field the patch sets takes the patch's value, every
      other field keeps its value, and `updated_at` becomes the given clock reading. A patch
      that nulls a NOT NULL column gives no storable row. */
  function ApplyUpdate(t: Task, u: TaskUpdate, now: Stamp): (r: Option<Task>)
    ensures r.None? <==> NullsRequiredField(u)
    ensures r.Some? ==> r.value.id == t.id && r.value.userId == t.userId && r.value.createdAt == t.createdAt
    ensures r.Some? ==> r.value.title == (if u.title.Some? then u.title.value.value else t.title)
    ensures r.Some? ==> r.value.description == (if u.description.Some? then u.description.value else t.description)
    ensures r.Some? ==> r.value.status == (if u.status.Some? then u.status.value.value else t.status)
    ensures r.Some? ==> r.value.dueDate == (if u.dueDate.Some? then u.dueDate.value else t.dueDate)
    ensures r.Some? ==> r.value.updatedAt == now
    ensures r.Some? && ValidTask(t) && ValidUpdate(u) ==> ValidTask(r.value)
  {
    if NullsRequiredField(u) then None
    else
      Some(t.(title := if u.title.Some? then u.title.value.value else t.title,
              description := u.description.GetOr(t.description),
              status := if u.status.Some? then u.status.value.value else t.status,
              dueDate := u.dueDate.GetOr(t.dueDate),
              updatedAt := now))
  }

  /** `update_task`: patch the caller's row, or report that there is none. A patch that
      nulls a NOT NULL column fails the commit with an integrity error; the session is
      closed without a commit, so the table is unchanged. */
  function UpdateTask(store: Store, taskId: string, u: TaskUpdate, userId: string, now: Stamp): (r: (Store, Result<Option<Task>, string>))
    requires UniqueIds(store)
    ensures r.1 == Ok(None) <==> !exists t :: t in store && t.id == taskId && t.userId == userId
    ensures r.1.Err? <==> (exists t :: t in store && t.id == taskId && t.userId == userId) && NullsRequiredField(u)
    ensures !(r.1.Ok? && r.1.value.Some?) ==> r.0 == store
    ensures r.1.Ok? && r.1.value.Some? ==>
      exists i :: 0 <= i < |store| && store[i].id == taskId && store[i].userId == userId
        && ApplyUpdate(store[i], u, now) == r.1.value && r.0 == store[i := r.1.value.value]
    ensures UniqueIds(r.0)
    ensures Invariant(store) && ValidUpdate(u) ==> Invariant(r.0)
  {
    match FindOwned(store, taskId, userId)
    case None => (store, Ok(None))
    case Some(i) =>
      match ApplyUpdate(store[i], u, now)
      case None => (store, Err("NOT NULL constraint failed"))
      case Some(t) =>
        var s' := store[i := t];
        assert forall v :: v in s' ==> v in store || v == t;
        (s', Ok(Some(t)))
  }

  /** `update_task_status`: set the status of the caller's row, or report that there is none. */
  function UpdateTaskStatus(store: Store, taskId: string, u: TaskUpdateStatus, userId: string, now: Stamp): (r: (Store, Option<Task>))
    requires UniqueIds(store)
    ensures r.1.None? <==> !exists t :: t in store && t.id == taskId && t.userId == userId
    ensures r.1.None? ==> r.0 == store
    ensures r.1.Some? ==>
      exists i :: 0 <= i < |store| && store[i].id == taskId && store[i].userId == userId
        && r.1.value == store[i].(status := u.status, updatedAt := now) && r.0 == store[i := r.1.value]
    ensures UniqueIds(r.0)
    ensures Invariant(store) ==> Invariant(r.0)
  {
    match FindOwned(store, taskId, userId)
    case None => (store, None)
    case Some(i) =>
      var t := store[i].(status := u.status, updatedAt := now);
      var s' := store[i := t];
      assert forall v :: v in s' ==> v in store || v == t;
      (s', Some(t))
  }

  /** The table without row `i`. */
  function RemoveAt(store: Store, i: nat): (r: Store)
    requires i < |store|
    ensures |r| == |store| - 1
    ensures forall k :: 0 <= k < |r| ==> r[k] == store[if k < i then k else k + 1]
    ensures forall v :: v in r ==> v in store
  {
    store[..i] + store[i + 1..]
  }

  lemma RemoveAtKeepsInvariant(store: Store, i: nat)
    requires i < |store|
    ensures UniqueIds(store) ==> UniqueIds(RemoveAt(store, i))
    ensures Invariant(store) ==> Invariant(RemoveAt(store, i))
  {
    var r := RemoveAt(store, i);
    if UniqueIds(store) {
      forall a, b | 0 <= a < b < |r|
        ensures r[a].id != r[b].id
      {
        assert r[a] == store[if a < i then a else a + 1];
        assert r[b] == store[if b < i then b else b + 1];
      }
    }
  }

  /** `delete_task`: remove the caller's row and answer whether there was one. */
  function DeleteTask(store: Store, taskId: string, userId: string): (r: (Store, bool))
    requires UniqueIds(store)
    ensures r.1 <==> exists t :: t in store && t.id == taskId && t.userId == userId
    ensures !r.1 ==> r.0 == store
    ensures r.1 ==>
      exists i :: 0 <= i < |store| && store[i].id == taskId && store[i].userId == userId
        && r.0 == RemoveAt(store, i)
    ensures UniqueIds(r.0)
    ensures Invariant(store) ==> Invariant(r.0)
  {
    match FindOwned(store, taskId, userId)
    case None => (store, false)
    case Some(i) =>
      RemoveAtKeepsInvariant(store, i);
      (RemoveAt(store, i), true)
  }

  lemma {:induction false} SelectedLengthIsCount(store: Store, userId: string, statusFilter: Option<Status>)
    ensures |Selected(store, userId, statusFilter)| == CountTasks(store, userId, statusFilter)
  {
    if |store| > 0 {
      assert store == [store[0]] + store[1..];
      var p := (t: Task) => Matches(userId, statusFilter, t);
      Seqs.FilterAppend(p, [store[0]], store[1..]);
      SelectedLengthIsCount(store[1..], userId, statusFilter);
    }
  }

  /** The count agrees with the listing: a first page large enough to hold every selected
      row holds exactly them, as many as the count says. */
  lemma CountMatchesListing(store: Store, userId: string, statusFilter: Option<Status>,
                            limit: nat, sortBy: string, order: string)
    requires limit >= CountTasks(store, userId, statusFilter)
    ensures var page := GetTasks(store, userId, statusFilter, 0, limit, sortBy, order);
      && |page| == CountTasks(store, userId, statusFilter)
      && multiset(page) == multiset(Selected(store, userId, statusFilter))
      && forall t :: t in page <==> t in store && Matches(userId, statusFilter, t)
  {
    SelectedLengthIsCount(store, userId, statusFilter);
    var sel := Selected(store, userId, statusFilter);
    var sorted := Sort(KeyOf(sortBy), Ascending(order), sel);
    assert OffsetLimit(sorted, 0, limit) == sorted;
    forall t | t in store && Matches(userId, statusFilter, t)
      ensures t in sorted
    {
      assert t in sel;
      assert t in multiset(sorted);
    }
  }

  /** Once deleted, a task is no longer found for its owner, and every other row stays. */
  lemma DeleteThenGet(store: Store, taskId: string, userId: string)
    requires UniqueIds(store)
    requires DeleteTask(store, taskId, userId).1
    ensures var s' := DeleteTask(store, taskId, userId).0;
      && GetTaskById(s', taskId, userId).None?
      && forall t :: t in store && t.id != taskId ==> t in s'
  {
    var s' := DeleteTask(store, taskId, userId).0;
    var i :| 0 <= i < |store| && store[i].id == taskId && store[i].userId == userId
      && s' == RemoveAt(store, i);
    forall k | 0 <= k < |s'|
      ensures s'[k].id != taskId
    {
      assert s'[k] == store[if k < i then k else k + 1];
    }
    forall t | t in store && t.id != taskId
      ensures t in s'
    {
      var j :| 0 <= j < |store| && store[j] == t;
      assert s'[if j < i then j else j - 1] == t;
    }
  }

  /** A created task is found by its owner under its new key, and only by its owner. */
  lemma CreateThenGet(store: Store, c: TaskCreate, userId: string, other: string, newId: string, created: Stamp, updated: Stamp)
    requires UniqueIds(store)
    requires CreateTask(store, c, userId, newId, created, updated).1.Ok?
    requires other != userId
    ensures var (s', r) := CreateTask(store, c, userId, newId, created, updated);
      && GetTaskById(s', newId, userId) == Some(r.value)
      && GetTaskById(s', newId, other).None?
  {
    var (s', r) := CreateTask(store, c, userId, newId, created, updated);
    assert s'[|store|] == r.value;
    var g := GetTaskById(s', newId, userId);
    assert g.Some?;
    var j :| 0 <= j < |s'| && s'[j] == g.value;
    assert j == |store|;
  }
}

=== FILE: tasks_api.dfy ===
/** The task endpoints: the guard on the authenticated user, the handlers' own input
    checks, the page arithmetic, and the mapping of service results to responses. */
module TasksApi {
  import opened Wrappers
  import opened TaskModel
  import opened Errors
  import TaskService
  import TaskOrder

  datatype Pagination = Pagination(page: int, limit: int, total: nat, pages: nat)

  /** A response body: a page of tasks, one task, or a message. */
  datatype Body =
    | TaskPage(tasks: seq<Task>, pagination: Pagination)
    | OneTask(task: Task)
    | Message(text: string)

  datatype Response = Response(status: nat, body: Body)

  type Reply = Result<Response, HttpError>

  /** The listing parameters after FastAPI has coerced and range-checked them. */
  datatype ListQuery = ListQuery(statusFilter: Option<Status>, page: int, limit: int, sortBy: string, order: string)

  const PageMin: int := 1
  const LimitMin: int := 1
  const LimitMax: int := 100

  /** The `Query(ge=…, le=…)` bounds on `page` and `limit`. */
  predicate QueryInRange(q: ListQuery)
  {
    q.page >= PageMin && LimitMin <= q.limit <= LimitMax
  }

  /** `request.state.user_id` is present and not empty. */
  predicate HasUser(userId: Option<string>)
  {
    userId.Some? && userId.value != ""
  }

  const MissingUser: HttpError := HttpError(401, "User ID not found in request", map[])
  const TitleLengthMessage: string := "Title must be between 1 and 100 characters"
  const DescriptionLengthMessage: string := "Description must be less than 1000 characters"
  const DeletedMessage: string := "Task deleted successfully"
  /** An exception the handler does not catch: FastAPI answers 500. */
  const InternalError: HttpError := HttpError(500, "Internal Server Error", map[])

  /** Rows before the requested page: none for the first page, and fewer than the rows
      up to the end of the requested page. */
  function Skip(page: int, limit: int): (skip: nat)
    requires page >= 1 && limit >= 1
    ensures skip == 0 <==> page == 1
    ensures skip + limit <= page * limit
  {
    (page - 1) * limit
  }

  /** `(total + limit - 1) // limit`: the number of pages holding `total` rows. */
  function PageCount(total: nat, limit: int): (pages: nat)
    requires limit >= 1
    ensures pages * limit >= total
    ensures total > 0 ==> (pages - 1) * limit < total
    ensures pages == 0 <==> total == 0
  {
    (total + limit - 1) / limit
  }

  /** `GET /tasks/` */
  function ListTasks(store: TaskService.Store, userId: Option<string>, q: ListQuery): (r: Reply)
    requires QueryInRange(q)
    ensures r.Err? <==> !HasUser(userId)
    ensures r.Err? ==> r.error == MissingUser
    ensures r.Ok? ==> r.value.status == 200 && r.value.body.TaskPage?
    ensures r.Ok? ==>
      var TaskPage(tasks, p) := r.value.body;
      && p.page == q.page && p.limit == q.limit
      && p.total == TaskService.CountTasks(store, userId.value, q.statusFilter)
      && p.pages == PageCount(p.total, q.limit)
      && tasks == TaskService.GetTasks(store, userId.value, q.statusFilter, Skip(q.page, q.limit), q.limit, q.sortBy, q.order)
      && |tasks| <= q.limit
      && forall t :: t in tasks ==> t in store && TaskService.Matches(userId.value, q.statusFilter, t)
  {
    if !HasUser(userId) then
      Err(MissingUser)
    else
      var uid := userId.value;
      var tasks := TaskService.GetTasks(store, uid, q.statusFilter, Skip(q.page, q.limit), q.limit, q.sortBy, q.order);
      var total := TaskService.CountTasks(store, uid, q.statusFilter);
      Ok(Response(200, TaskPage(tasks, Pagination(q.page, q.limit, total, PageCount(total, q.limit)))))
  }

  /** The create handler's own check on the body, before the service is called. */
  function CheckCreate(c: TaskCreate): (r: Option<HttpError>)
    ensures r.None? <==> ValidTitle(c.title) && (c.description.None? || c.description.value == "" || |c.description.value| <= DescriptionMaxLength)
    ensures r.Some? ==> r.value.status == 422
  {
    if |c.title| < 1 || |c.title| > 100 then
      Some(ToHttp(ValidationFailed(TitleLengthMessage)))
    else if c.description.Some? && c.description.value != "" && |c.description.value| > 1000 then
      Some(ToHttp(ValidationFailed(DescriptionLengthMessage)))
    else
      None
  }

  /** A body that passed the model's field constraints never trips the handlers' own checks:
      those checks repeat, or are weaker than, the constraints on `TaskCreate` and `TaskUpdate`. */
  lemma HandlerChecksImpliedByModel(c: TaskCreate, u: TaskUpdate)
    ensures ValidCreate(c) ==> CheckCreate(c).None?
    ensures ValidUpdate(u) ==> CheckUpdate(u).None?
  {
  }

  /** `POST /tasks/` */
  function CreateTask(store: TaskService.Store, userId: Option<string>, c: TaskCreate, newId: string, created: Stamp, updated: Stamp): (r: (TaskService.Store, Reply))
    ensures !HasUser(userId) ==> r == (store, Err(MissingUser))
    ensures r.1.Err? ==> r.0 == store
    ensures HasUser(userId) && CheckCreate(c).Some? ==> r.1 == Err(CheckCreate(c).value)
    ensures HasUser(userId) && CheckCreate(c).None? ==>
      (r.1.Ok? <==> !exists t :: t in store && t.id == newId)
    ensures HasUser(userId) && CheckCreate(c).None? && r.1.Err? ==> r.1 == Err(InternalError)
    ensures r.1.Ok? ==>
      && r.1.value.body.OneTask?
      && (r.0, Ok(r.1.value.body.task)) == TaskService.CreateTask(store, c, userId.value, newId, created, updated)
    ensures r.1.Ok? ==>
      && r.1.value.status == 201 && r.1.value.body.OneTask?
      && r.0 == store + [r.1.value.body.task]
      && r.1.value.body.task.userId == userId.value
      && r.1.value.body.task.title == c.title
      && r.1.value.body.task.status == CreateStatus(c)
    ensures TaskService.Invariant(store) && ValidCreate(c) ==> TaskService.Invariant(r.0)
  {
    if !HasUser(userId) then
      (store, Err(MissingUser))
    else if CheckCreate(c).Some? then
      (store, Err(CheckCreate(c).value))
    else
      match TaskService.CreateTask(store, c, userId.value, newId, created, updated)
      case (s', Ok(t)) => (s', Ok(Response(201, OneTask(t))))
      case (_, Err(_)) => (store, Err(InternalError))
  }

  /** `GET /tasks/{task_id}` */
  function GetTask(store: TaskService.Store, userId: Option<string>, taskId: string): (r: Reply)
    requires TaskService.UniqueIds(store)
    ensures !HasUser(userId) ==> r == Err(MissingUser)
    ensures HasUser(userId) && TaskService.GetTaskById(store, taskId, userId.value).None? ==>
      r == Err(HttpError(404, NotFoundDetail(taskId), map[]))
    ensures HasUser(userId) && TaskService.GetTaskById(store, taskId, userId.value).Some? ==>
      r == Ok(Response(200, OneTask(TaskService.GetTaskById(store, taskId, userId.value).value)))
    ensures r.Ok? ==> r.value == Response(200, OneTask(TaskService.GetTaskById(store, taskId, userId.value).value))
  {
    if !HasUser(userId) then
      Err(MissingUser)
    else
      match TaskService.GetTaskById(store, taskId, userId.value)
      case None => Err(ToHttp(UnauthorizedTaskAccess(taskId, userId.value)))
      case Some(t) => Ok(Response(200, OneTask(t)))
  }

  /** The update handler's own check: a title is checked only when sent and non-empty,
      a description only when sent and non-empty. */
  function CheckUpdate(u: TaskUpdate): (r: Option<HttpError>)
    ensures r.None? <==>
      && (u.title.None? || u.title.value.None? || u.title.value.value == "" || |u.title.value.value| <= TitleMaxLength)
      && (u.description.None? || u.description.value.None? || u.description.value.value == ""
          || |u.description.value.value| <= DescriptionMaxLength)
    ensures r.Some? ==> r.value.status == 422
  {
    if u.title.Some? && u.title.value.Some? && u.title.value.value != ""
       && (|u.title.value.value| < 1 || |u.title.value.value| > 100) then
      Some(ToHttp(ValidationFailed(TitleLengthMessage)))
    else if u.description.Some? && u.description.value.Some? && u.description.value.value != ""
         && |u.description.value.value| > 1000 then
      Some(ToHttp(ValidationFailed(DescriptionLengthMessage)))
    else
      None
  }

  /** `PUT /tasks/{task_id}` */
  function UpdateTask(store: TaskService.Store, userId: Option<string>, taskId: string, u: TaskUpdate, now: Stamp): (r: (TaskService.Store, Reply))
    requires TaskService.UniqueIds(store)
    ensures !HasUser(userId) ==> r == (store, Err(MissingUser))
    ensures r.1.Err? ==> r.0 == store
    ensures HasUser(userId) && CheckUpdate(u).Some? ==> r.1 == Err(CheckUpdate(u).value)
    ensures HasUser(userId) && CheckUpdate(u).None? && TaskService.GetTaskById(store, taskId, userId.value).None? ==>
      r.1 == Err(HttpError(404, NotFoundDetail(taskId), map[]))
    ensures HasUser(userId) && CheckUpdate(u).None? && TaskService.GetTaskById(store, taskId, userId.value).Some? && NullsRequiredField(u) ==>
      r.1 == Err(InternalError)
    ensures HasUser(userId) && CheckUpdate(u).None? && TaskService.GetTaskById(store, taskId, userId.value).Some? && !NullsRequiredField(u) ==>
      && r.1.Ok? && r.1.value.body.OneTask?
      && Some(r.1.value.body.task) == TaskService.ApplyUpdate(TaskService.GetTaskById(store, taskId, userId.value).value, u, now)
    ensures r.1.Ok? ==>
      && r.1.value.status == 200 && r.1.value.body.OneTask?
      && (r.0, Ok(Some(r.1.value.body.task))) == TaskService.UpdateTask(store, taskId, u, userId.value, now)
  {
    if !HasUser(userId) then
      (store, Err(MissingUser))
    else if CheckUpdate(u).Some? then
      (store, Err(CheckUpdate(u).value))
    else
      match TaskService.UpdateTask(store, taskId, u, userId.value, now)
      case (_, Ok(None)) => (store, Err(ToHttp(UnauthorizedTaskAccess(taskId, userId.value))))
      case (s', Ok(Some(t))) => (s', Ok(Response(200, OneTask(t))))
      case (_, Err(_)) => (store, Err(InternalError))
  }

  /** `PATCH /tasks/{task_id}/status` */
  function UpdateTaskStatus(store: TaskService.Store, userId: Option<string>, taskId: string, u: TaskUpdateStatus, now: Stamp): (r: (TaskService.Store, Reply))
    requires TaskService.UniqueIds(store)
    ensures !HasUser(userId) ==> r == (store, Err(MissingUser))
    ensures r.1.Err? ==> r.0 == store
    ensures HasUser(userId) && TaskService.GetTaskById(store, taskId, userId.value).None? ==>
      r.1 == Err(HttpError(404, NotFoundDetail(taskId), map[]))
    ensures HasUser(userId) && TaskService.GetTaskById(store, taskId, userId.value).Some? ==>
      && r.1.Ok? && r.1.value.body.OneTask?
      && r.1.value.body.task == TaskService.GetTaskById(store, taskId, userId.value).value.(status := u.status, updatedAt := now)
    ensures r.1.Ok? ==> r.1.value.status == 200 && r.1.value.body.OneTask? && (r.0, Some(r.1.value.body.task)) == TaskService.UpdateTaskStatus(store, taskId, u, userId.value, now)
  {
    if !HasUser(userId) then
      (store, Err(MissingUser))
    else
      match TaskService.UpdateTaskStatus(store, taskId, u, userId.value, now)
      case (_, None) => (store, Err(ToHttp(UnauthorizedTaskAccess(taskId, userId.value))))
      case (s', Some(t)) => (s', Ok(Response(200, OneTask(t))))
  }

  /** `DELETE /tasks/{task_id}` */
  function DeleteTask(store: TaskService.Store, userId: Option<string>, taskId: string): (r: (TaskService.Store, Reply))
    requires TaskService.UniqueIds(store)
    ensures !HasUser(userId) ==> r == (store, Err(MissingUser))
    ensures r.1.Err? ==> r.0 == store
    ensures HasUser(userId) && TaskService.GetTaskById(store, taskId, userId.value).None? ==>
      r.1 == Err(HttpError(404, NotFoundDetail(taskId), map[]))
    ensures HasUser(userId) && TaskService.GetTaskById(store, taskId, userId.value).Some? ==>
      r.1 == Ok(Response(200, Message(DeletedMessage))) && |r.0| == |store| - 1
    ensures r.1.Ok? ==> r.1.value == Response(200, Message(DeletedMessage)) && r.0 == TaskService.DeleteTask(store, taskId, userId.value).0
  {
    if !HasUser(userId) then
      (store, Err(MissingUser))
    else
      match TaskService.DeleteTask(store, taskId, userId.value)
      case (_, false) => (store, Err(ToHttp(UnauthorizedTaskAccess(taskId, userId.value))))
      case (s', true) => (s', Ok(Response(200, Message(DeletedMessage))))
  }

  lemma MulMonotone(a: int, b: int, c: int)
    requires a <= b && c >= 0
    ensures a * c <= b * c
  {
    assert b * c - a * c == (b - a) * c;
  }

  lemma DivBounds(i: nat, limit: int)
    requires limit >= 1
    ensures (i / limit) * limit <= i < (i / limit) * limit + limit
  {
    assert i == (i / limit) * limit + i % limit;
  }

  /** A row position lies in the slice of at most one page. */
  lemma OnePageOnly(i: nat, limit: int, s: int, q: int)
    requires limit >= 1
    requires s * limit <= i < s * limit + limit
    requires q * limit <= i < q * limit + limit
    ensures s == q
  {
    if s < q {
      MulMonotone(s + 1, q, limit);
    } else if q < s {
      MulMonotone(q + 1, s, limit);
    }
  }

  /** Pagination covers the selection exactly once: the row at position `i` of the ordered
      selection lies on page `i / limit + 1`, which is one of the `pages` the listing reports,
      and on no other page. */
  lemma EveryRowOnExactlyOnePage(total: nat, limit: int, i: nat, page: int)
    requires limit >= 1 && i < total && page >= 1
    ensures 1 <= i / limit + 1 <= PageCount(total, limit)
    ensures Skip(i / limit + 1, limit) <= i < Skip(i / limit + 1, limit) + limit
    ensures Skip(page, limit) <= i < Skip(page, limit) + limit ==> page == i / limit + 1
  {
    var q := i / limit;
    var pages := PageCount(total, limit);
    DivBounds(i, limit);
    if q >= pages {
      MulMonotone(pages, q, limit);
    }
    if Skip(page, limit) <= i < Skip(page, limit) + limit {
      OnePageOnly(i, limit, page - 1, q);
    }
  }

  /** The listing's pages together show the whole ordered selection, each row once and in
      place: the row at position `i` is the row at position `i - Skip(page, limit)` of the
      page `i / limit + 1`, a page the listing reports. */
  lemma EveryTaskOnItsPage(store: TaskService.Store, userId: string, statusFilter: Option<Status>,
                           limit: int, sortBy: string, order: string, i: nat)
    requires userId != "" && LimitMin <= limit <= LimitMax
    requires i < TaskService.CountTasks(store, userId, statusFilter)
    ensures var page := i / limit + 1;
      var r := ListTasks(store, Some(userId), ListQuery(statusFilter, page, limit, sortBy, order));
      var ordered := TaskOrder.Sort(TaskOrder.KeyOf(sortBy), TaskOrder.Ascending(order),
                                    TaskService.Selected(store, userId, statusFilter));
      && r.Ok? && page <= r.value.body.pagination.pages
      && Skip(page, limit) <= i < Skip(page, limit) + |r.value.body.tasks|
      && r.value.body.tasks[i - Skip(page, limit)] == ordered[i]
  {
    var total := TaskService.CountTasks(store, userId, statusFilter);
    TaskService.SelectedLengthIsCount(store, userId, statusFilter);
    EveryRowOnExactlyOnePage(total, limit, i, 1);
    var page := i / limit + 1;
    var ordered := TaskOrder.Sort(TaskOrder.KeyOf(sortBy), TaskOrder.Ascending(order),
                                  TaskService.Selected(store, userId, statusFilter));
    var r := ListTasks(store, Some(userId), ListQuery(statusFilter, page, limit, sortBy, order));
    assert r.value.body.tasks == TaskService.OffsetLimit(ordered, Skip(page, limit), limit);
    OffsetLimitHolds(ordered, Skip(page, limit), limit, i);
  }

  /** An API round trip: a valid create with a fresh key answers 201, and the same user then
      reads the stored task back with 200. */
  lemma CreateThenGet(store: TaskService.Store, userId: string, c: TaskCreate, newId: string, created: Stamp, updated: Stamp)
    requires TaskService.UniqueIds(store)
    requires userId != "" && CheckCreate(c).None?
    requires forall t :: t in store ==> t.id != newId
    ensures var (s', r) := CreateTask(store, Some(userId), c, newId, created, updated);
      && r.Ok? && r.value.status == 201 && r.value.body.OneTask?
      && TaskService.UniqueIds(s')
      && GetTask(s', Some(userId), newId) == Ok(Response(200, OneTask(r.value.body.task)))
  {
    var (s', r) := CreateTask(store, Some(userId), c, newId, created, updated);
    TaskService.CreateThenGet(store, c, userId, userId + "'", newId, created, updated);
  }

  /** After an answered delete the same user's read of the key is a 404. */
  lemma DeleteThenGet(store: TaskService.Store, userId: string, taskId: string)
    requires TaskService.UniqueIds(store)
    requires userId != "" && TaskService.GetTaskById(store, taskId, userId).Some?
    ensures var (s', r) := DeleteTask(store, Some(userId), taskId);
      && r == Ok(Response(200, Message(DeletedMessage)))
      && TaskService.UniqueIds(s')
      && GetTask(s', Some(userId), taskId) == Err(HttpError(404, NotFoundDetail(taskId), map[]))
  {
    TaskService.DeleteThenGet(store, taskId, userId);
  }

  /** A position inside the window `[skip, skip + limit)` of a sequence is on the window's
      page, at its offset from `skip`. */
  lemma OffsetLimitHolds(s: seq<Task>, skip: nat, limit: nat, i: nat)
    requires skip <= i < skip + limit && i < |s|
    ensures i < skip + |TaskService.OffsetLimit(s, skip, limit)|
    ensures TaskService.OffsetLimit(s, skip, limit)[i - skip] == s[i]
  {
  }
}

=== FILE: user_service.dfy ===
/** The user service over an in-memory user table. Password hashing is a foreign call
    and is passed in as an uninterpreted function. */
module UserService {
  import opened Wrappers
  import opened Errors

  datatype User = User(id: string, email: string, hashedPassword: string)

  type Users = seq<User>

  predicate UniqueIds(users: Users)
  {
    forall i, j :: 0 <= i < j < |users| ==> users[i].id != users[j].id
  }

  predicate UniqueEmails(users: Users)
  {
    forall i, j :: 0 <= i < j < |users| ==> users[i].email != users[j].email
  }

  /** The table's state: `id` is the primary key and `email` is unique. */
  predicate Invariant(users: Users)
  {
    UniqueIds(users) && UniqueEmails(users)
  }

  const DuplicateEmail: string := "User with this email already exists"

  /** The first row satisfying `p`, if any. */
  function FindWhere(users: Users, p: User -> bool): (r: Option<User>)
    ensures r.Some? ==> r.value in users && p(r.value)
    ensures r.None? <==> forall u :: u in users ==> !p(u)
  {
    if |users| == 0 then None
    else if p(users[0]) then Some(users[0])
    else
      assert users == [users[0]] + users[1..];
      FindWhere(users[1..], p)
  }

  /** `get_user_by_email`: the one user with that email, or nothing. */
  function GetUserByEmail(users: Users, email: string): (r: Option<User>)
    requires UniqueEmails(users)
    ensures r.Some? <==> exists u :: u in users && u.email == email
    ensures r.Some? ==> r.value in users && r.value.email == email
    ensures r.Some? ==> forall u :: u in users && u.email == email ==> u == r.value
  {
    FindWhere(users, (u: User) => u.email == email)
  }

  /** `get_user_by_id`: the one user with that key, or nothing. */
  function GetUserById(users: Users, userId: string): (r: Option<User>)
    requires UniqueIds(users)
    ensures r.Some? <==> exists u :: u in users && u.id == userId
    ensures r.Some? ==> r.value in users && r.value.id == userId
    ensures r.Some? ==> forall u :: u in users && u.id == userId ==> u == r.value
  {
    FindWhere(users, (u: User) => u.id == userId)
  }

  /** `create_user`. An email already present is refused before anything is written; a
      commit that violates a table constraint (here: a key already in use) is rolled back
      and refused the same way. Only the hash of the password is stored. */
  function CreateUser(users: Users, email: string, password: string, hash: string -> string, newId: string): (r: (Users, Result<User, HttpError>))
    ensures r.1.Err? ==> r.0 == users && r.1.error == ToHttp(AuthenticationFailed(DuplicateEmail))
    ensures (exists u :: u in users && u.email == email) ==> r.1.Err?
    ensures r.1.Ok? <==> (forall u :: u in users ==> u.email != email && u.id != newId)
    ensures r.1.Ok? ==> r.1.value == User(newId, email, hash(password)) && r.0 == users + [r.1.value]
    ensures Invariant(users) ==> Invariant(r.0)
  {
    if exists u :: u in users && u.email == email then
      (users, Err(ToHttp(AuthenticationFailed(DuplicateEmail))))
    else
      var user := User(newId, email, hash(password));
      if exists u :: u in users && u.id == newId then
        (users, Err(ToHttp(AuthenticationFailed(DuplicateEmail))))
      else
        var users' := users + [user];
        assert forall i :: 0 <= i < |users| ==> users'[i] == users[i] && users[i] in users;
        (users', Ok(user))
  }

  /** Registering the same email twice: the second attempt is refused with a 401 and the
      table holds one user with that email. */
  lemma SecondRegistrationRefused(users: Users, email: string, p1: string, p2: string, hash: string -> string, id1: string, id2: string)
    requires Invariant(users)
    requires CreateUser(users, email, p1, hash, id1).1.Ok?
    ensures var users' := CreateUser(users, email, p1, hash, id1).0;
      && CreateUser(users', email, p2, hash, id2) == (users', Err(HttpError(401, DuplicateEmail, BearerChallenge)))
      && GetUserByEmail(users', email) == Some(User(id1, email, hash(p1)))
  {
    var users' := CreateUser(users, email, p1, hash, id1).0;
    assert users'[|users|].email == email;
  }
}

=== FILE: wire.dfy ===
/** How the two ends meet: what the server reads from the queries the clients build, what
    the server accepts of what the form submits, and how the page's buttons cover the
    server's pages. */
module Wire {
  import opened Wrappers
  import opened TaskModel
  import opened Query
  import Strings
  import Api
  import ApiClient
  import Router
  import TasksApi
  import TaskForm
  import HomePage
  import AuthSession
  import TaskService

  /** The server reads back a number the clients wrote. */
  lemma BindsWrittenNumber(n: nat, default: int)
    ensures Router.BindInt(Some(Strings.NatToString(n)), default) == Some(n)
  {
    Router.BindIntReadsNumerals(n, [], [], default);
    assert [] + Strings.IntToString(n) + [] == Strings.NatToString(n);
  }

  /** Whatever filter the page asks for, the server reads none: the page sends it under
      `status` while the server reads `status_filter`, so every status is listed. Page and
      limit arrive intact, and sorting and order take their defaults. */
  lemma PageFilterNotApplied(page: nat, limit: nat, filter: Option<Api.ViewFilter>)
    requires page >= 1 && 1 <= limit <= 100
    ensures Router.BindListQuery(Api.TasksQuery(page, limit, filter))
         == Ok(TasksApi.ListQuery(None, page, limit, "created_at", "desc"))
  {
    var ps := Api.TasksQuery(page, limit, filter);
    assert Lookup(ps, "status_filter").None?;
    assert Lookup(ps, "sort_by").None?;
    assert Lookup(ps, "order").None?;
    BindsWrittenNumber(page, 1);
    BindsWrittenNumber(limit, 10);
  }

  /** With the filter sent as `status_filter`, the server reads the page's filter: "all"
      or no filter lists every status, and a chosen status lists only that one. */
  lemma PageFilterAppliedWhenNamed(page: nat, limit: nat, filter: Option<Api.ViewFilter>)
    requires page >= 1 && 1 <= limit <= 100
    ensures Router.BindListQuery(Api.TasksQueryIntended(page, limit, filter))
         == Ok(TasksApi.ListQuery(if filter.Some? && filter.value.Only? then Some(filter.value.status) else None,
                                  page, limit, "created_at", "desc"))
  {
    if filter.Some? && filter.value.Only? {
      StatusNameRoundTrip(filter.value.status);
    }
    BindsWrittenNumber(page, 1);
    BindsWrittenNumber(limit, 10);
  }

  /** The same holds for the class-based client: its `status` is never read, while its
      page, limit, sort key and order are. */
  lemma ClientFilterNotApplied(status: Option<Status>, page: nat, limit: nat, sortBy: string, order: string)
    requires page >= 1 && 1 <= limit <= 100
    ensures Router.BindListQuery(ApiClient.GetTasksParams(status, page, limit, sortBy, order))
         == Ok(TasksApi.ListQuery(None, page, limit, sortBy, order))
  {
    var ps := ApiClient.GetTasksParams(status, page, limit, sortBy, order);
    var base := ps[..4];
    assert Lookup(ps, "status_filter").None?;
    assert Lookup(base, "page") == Some(Strings.NatToString(page));
    assert Lookup(base, "limit") == Some(Strings.NatToString(limit));
    assert Lookup(base, "sort_by") == Some(sortBy);
    assert Lookup(base, "order") == Some(order);
    if status.Some? {
      assert ps[..4] == base;
    } else {
      assert ps == base;
    }
    BindsWrittenNumber(page, 1);
    BindsWrittenNumber(limit, 10);
  }

  /** Whatever the form submits, the create endpoint accepts: the body meets the field
      constraints and the handler's checks, and, sent without a status, is stored as
      pending. */
  lemma FormDraftIsValidCreate(title: string, description: string, dueDay: Option<TaskForm.Day>)
    requires TaskForm.Submit(title, description, dueDay).Ok?
    ensures var d := TaskForm.Submit(title, description, dueDay).value;
      var c := TaskCreate(d.title, d.description, None, d.dueDate);
      ValidCreate(c) && TasksApi.CheckCreate(c).None? && CreateStatus(c) == Pending
  {
    var d := TaskForm.Submit(title, description, dueDay).value;
    if d.description.Some? {
      assert |d.description.value| <= |description| <= TaskForm.Utf16Length(description);
    }
  }

  /** The form counts UTF-16 code units where the server counts characters: a title of
      more than 50 characters beyond the Basic Multilingual Plane (emoji, say) is refused
      by the form, though the server would store it. */
  lemma WideTitleRefusedByFormOnly(n: nat)
    requires 50 < n <= 100
    ensures var t := seq(n, _ => '\U{1F600}');
      && TaskForm.Submit(t, "", None) == Err(TaskForm.TitleLength)
      && ValidCreate(TaskCreate(t, None, None, None)) && TasksApi.CheckCreate(TaskCreate(t, None, None, None)).None?
  {
    var t := seq(n, _ => '\U{1F600}');
    Strings.TrimPadded(TaskForm.IsSpace, [], t, []);
    assert [] + t + [] == t;
    assert TaskForm.Utf16Length(t) == 2 * n;
  }

  /** The class-based client's defaults are the server's: a call with every argument left
      out is read as the listing the server serves when no parameter is sent. */
  lemma ClientDefaultsAreServerDefaults(status: Option<Status>)
    ensures Router.BindListQuery(ApiClient.GetTasksQuery(status, None, None, None, None))
         == Router.BindListQuery([])
         == Ok(TasksApi.ListQuery(None, 1, 10, "created_at", "desc"))
  {
    ClientFilterNotApplied(status, 1, 10, "created_at", "desc");
  }

  /** Every argument the class-based client passes reaches the server as sent, and every
      one it leaves out is read as the server's own default, each independently of the
      others. */
  lemma ClientArgumentsReachServer(status: Option<Status>, page: Option<nat>, limit: Option<nat>,
                                   sortBy: Option<string>, order: Option<string>)
    requires page.GetOr(1) >= 1 && 1 <= limit.GetOr(10) <= 100
    ensures Router.BindListQuery(ApiClient.GetTasksQuery(status, page, limit, sortBy, order))
         == Ok(TasksApi.ListQuery(None, page.GetOr(1), limit.GetOr(10), sortBy.GetOr("created_at"), order.GetOr("desc")))
  {
    var p, l, sb, o := page.GetOr(1), limit.GetOr(10), sortBy.GetOr("created_at"), order.GetOr("desc");
    assert ApiClient.GetTasksQuery(status, page, limit, sortBy, order) == ApiClient.GetTasksParams(status, p, l, sb, o);
    ClientFilterNotApplied(status, p, l, sb, o);
  }

  /** When the rows span more than one page, each row's page has a button; otherwise no
      button is shown and every row is on page 1. */
  lemma EveryRowHasAButton(total: nat, limit: int, i: nat)
    requires limit >= 1 && i < total
    ensures total > limit ==> i / limit + 1 in HomePage.PageButtons(TasksApi.PageCount(total, limit))
    ensures total <= limit ==> HomePage.PageButtons(TasksApi.PageCount(total, limit)) == [] && i / limit + 1 == 1
  {
    var pages := TasksApi.PageCount(total, limit);
    TasksApi.EveryRowOnExactlyOnePage(total, limit, i, 1);
    if total > limit {
      if pages <= 1 {
        TasksApi.MulMonotone(pages, 1, limit);
      }
      HomePage.PageButtonsAreAllPages(pages, i / limit + 1);
    } else {
      if pages > 1 {
        TasksApi.MulMonotone(1, pages - 1, limit);
      }
    }
  }

  /** The page loaded from the server's listing shows exactly the listed rows, and, when the
      selection spans more than one page, a button for the page of every selected row. */
  lemma LoadedListingCoversEveryRow(st: AuthSession.Storage, v: HomePage.View, store: TaskService.Store,
                                    userId: string, q: TasksApi.ListQuery, i: nat)
    requires AuthSession.IsAuthenticated(st) && userId != "" && TasksApi.QueryInRange(q)
    requires i < TaskService.CountTasks(store, userId, q.statusFilter)
    ensures var r := TasksApi.ListTasks(store, Some(userId), q);
      var tasks := r.value.body.tasks;
      var p := r.value.body.pagination;
      var (view, effect) := HomePage.LoadTasks(st, v, Ok(HomePage.Listing(tasks, p.pages)));
      && effect == HomePage.Stay && view.tasks == tasks
      && (p.total > q.limit ==> i / q.limit + 1 in HomePage.PageButtons(view.totalPages))
  {
    EveryRowHasAButton(TaskService.CountTasks(store, userId, q.statusFilter), q.limit, i);
  }
}

=== FILE: wrappers.dfy ===
/** Failure-carrying wrappers shared by every module of the model. */
module Wrappers {

  /** An optional value: JavaScript's `undefined`/`null`, Python's `None`. */
  datatype Option<+T> = None | Some(value: T)
  {
    function GetOr(default: T): T
    {
      match this
      case Some(v) => v
      case None => default
    }
  }

  /** Either a value or an error; the model's rendering of a thrown exception. */
  datatype Result<+R, +E> = Ok(value: R) | Err(error: E)
}
